=== FILE: README.md ===
# gist-import: import resolver and execute-and-repair core, in Dafny

`gist_import` runs a GitHub gist (or any code block) with `exec` in a
private namespace. If that first run fails with a `NameError`, it assumes
the snippet's own imports were lost and repairs them. It scans the code
block for import lines and imports each one by hand with
`importlib.import_module`. It merges the resulting names into the namespace
and runs the snippet a second time.

This project models that core as pure Dafny functions and proves what it
does:

- `text.dfy` (`Text`) holds the Python string operations the core relies on:
  - `str.split('\n')` and `'\n'.join`;
  - `str.strip`, `str.count` and `str.replace`;
  - `re.sub(MARKER + '.*', '', s)` and `re.findall(r'(\w+)', s)`.
- `patterns.dfy` (`Patterns`) matches the two anchored regular expressions
  of the resolver by hand. It follows the backtracking order of Python's
  `re` engine. Each matcher is proved sound and complete against a
  declarative description of a match.
- `scanner.dfy` (`Scanner`, `ScannerFacts`) covers `_get_next_line` and
  `get_import_lines`. Physical lines are folded into logical lines through
  backslash continuations, comment removal and unclosed `(`. The lines that
  mention `import` are then selected.
- `resolver.dfy` (`Resolver`, `ResolverFacts`) covers `import_imports`,
  `import_from_import`, `import_direct_import`, `assert_rex` and
  `get_imports_in_codeblock`.
  - `importlib.import_module` is a parameter `load`, of type `Loader`.
  - Python objects are opaque `Value`s.
  - Every exception the resolver can raise is a `ResolveError` in a
    `Result`.
- `executor.dfy` (`Executor`, `ExecutorFacts`) covers `try_excecuting_gist`
  and `_run`.
  - `exec` is a parameter `eval`, of type `Evaluator`. It returns the
    namespace as the snippet left it, and the exception it raised, if any.
  - `warnings.warn` is recorded as a list of `Warning`s.
- `gistsources.dfy` (`GistSources`, `GistSourcesFacts`) covers the
  constructors:
  - the `GistImporter` constructor, once the gist data is at hand,
    including `_parse_filename` and the seeding of the namespace;
  - `from_code_block`;
  - the URL rewrite of `from_github`.
- `wrappers.dfy` (`Wrappers`) holds `Option` and `Result`.

## Behaviour of the code that the model keeps

The model follows the code, including where the code does something other
than its documentation or its evident purpose:

- An unclosed `(` makes `_get_next_line` append exactly ONE more logical
  line (imports.py:57-58). It does not read on until the parentheses
  balance. A parenthesised import spread over three or more lines is cut
  after its second line (`ScannerFacts.UnbalancedPullsOnlyOneMoreLine`).
- The trailing backslash is checked on the raw line, before the comment is
  cut (imports.py:53-56). A comment that ends in `\` therefore swallows the
  next logical line (`ScannerFacts.CommentSwallowsContinuation`).
- A backslash on the last physical line raises `StopIteration` inside the
  recursive call. That ends the scan, and the unfinished logical line is
  lost. The scan never completes a continuation on the last physical line,
  whatever precedes it, and the logical lines read before it are kept
  (`ScannerFacts.UnfinishedTailDropped`, `ScannerFacts.KeptBeforeStop`).
- Lines are selected by the substring test `'import' in line`
  (imports.py:36). `important = 1` is selected, matches neither pattern, and
  makes `get_imports_in_codeblock` raise
  (`ResolverFacts.AssignmentBlocksRepair`).
- `re.search(r'as (.*)')` at imports.py:78 is called without its subject
  string. Every line containing ` as ` therefore raises `TypeError` once the
  import itself has succeeded. So no aliased import works, and
  imports.py:79-82 are unreachable (`Resolver.ImportImports`,
  `ResolverFacts.AliasAbortsCodeblock`).
- `from  import x`, with two blanks, matches the from-pattern with an empty
  module name, and `importlib` refuses it (`ResolverFacts.EmptyModuleNameRefused`).
- `import_module` is called without a `package`, so it refuses every
  relative name with a `TypeError`. `from . import x` and `from .m import y`
  match the from-pattern and then always raise
  (`ResolverFacts.RelativeFromImportRefused`).
- `import os.path` binds the dotted name `os.path` itself, which is not
  what Python's own `import` statement does
  (`ResolverFacts.DottedNameBoundWhole`).
- In `_run`, `get_imports_in_codeblock` is called outside any `try`
  (execution.py:68). An exception raised while repairing leaves `_run` and
  the constructor (`Executor.Run`).
- `try_excecuting_gist` catches only `Exception`. A `BaseException` such as
  `SystemExit` raised by the snippet passes through (`Executor.TryExecuting`).

## Model

| member | source | states |
|---|---|---|
| Text.SplitLines | gist_import/imports.py:33 | `codeblock.split('\n')` yields one more piece than there are newlines; no piece contains a newline; joining the pieces with newlines gives the code block back |
| Text.SplitSingleLine | gist_import/imports.py:33 | a code block without a newline splits into itself alone |
| Text.Strip | gist_import/imports.py:37 | `str.strip()` leaves no whitespace at either end of the result, which is no longer than the line |
| Text.StripIsWindow | gist_import/imports.py:37 | `str.strip()` returns a contiguous window of the line, everything before and after the window being whitespace |
| Text.StripIdempotent | gist_import/imports.py:37 | stripping an already stripped line changes nothing |
| Text.StripKeepsOccurrence | gist_import/imports.py:36-37 | an import line still contains `import` after `strip()` |
| Text.CutWithoutMarkerUnchanged | gist_import/imports.py:74-76 | `re.sub(r' as .*', '', line)` leaves a line without ` as ` unchanged |
| Text.CutRemovesCharMarker | gist_import/imports.py:56 | after `re.sub('#.*', '', line)` no `#` is left |
| Text.CutCharMarkerIsPrefix | gist_import/imports.py:56 | on one physical line, `re.sub('#.*', '', line)` is the prefix of the line up to its first `#` |
| Text.CutCharMarkerIdempotent | gist_import/imports.py:56 | cutting comments a second time changes nothing |
| Text.Words | gist_import/imports.py:102 | `re.findall('(\w+)', names)` yields non-empty runs of word characters, each found in the text |
| Text.WordsAreScanTokens | gist_import/imports.py:102 | the tokens are those of the character-by-character tokenizer: the maximal runs of word characters, in order |
| Text.WordsConcat | gist_import/imports.py:102 | written one after the other, the tokens are the names text with its non-word characters removed |
| Text.WordsOfPiE | gist_import/imports.py:102 | the names text `pi, e` gives exactly the tokens `pi` and `e` |
| Text.ReplaceAll | gist_import/execution.py:149-150 | `str.replace` of the target by itself returns the string unchanged, and a replacement of the target's length keeps the length |
| Text.ReplaceAbsentUnchanged | gist_import/execution.py:149-150 | `str.replace` of a target that does not occur returns the string unchanged |
| Text.ReplaceSkipsDelimited | gist_import/execution.py:150 | a prefix without occurrences, whose last character appears in the target at most as its final character, is copied and the rest is rewritten on its own |
| Scanner.StripComment | gist_import/imports.py:56 | the result holds no `#`; on one physical line it is the prefix before the first `#` |
| Scanner.NextLine | gist_import/imports.py:43-59 | each call consumes at least one and at most all remaining physical lines; an empty line is an empty logical line; no logical line contains `#` |
| Scanner.LogicalLines | gist_import/imports.py:33-35 | at most one logical line per physical line, none containing `#` |
| Scanner.SelectImports | gist_import/imports.py:36-37 | every selected line contains `import` and is stripped, and there are no more selected lines than logical ones |
| Scanner.GetImportLines | gist_import/imports.py:22-39 | the loop that reads logical lines until `StopIteration` returns exactly the selected, stripped logical lines of the block |
| ScannerFacts.NoCommentUnchanged | gist_import/imports.py:56 | a line without `#` is left alone by the comment cut |
| ScannerFacts.PlainLinePassesThrough | gist_import/imports.py:50-59 | a non-empty line with no continuation, no comment and no surplus `(` is a logical line by itself |
| ScannerFacts.UnbalancedAppendsOneLine | gist_import/imports.py:56-58 | a line with surplus `(` is joined with exactly the next logical line |
| ScannerFacts.UnbalancedPullsOnlyOneMoreLine | gist_import/imports.py:57-58 | `f(a,` / `b,` gives the logical line `f(a,b,`, which is still unbalanced |
| Scanner.Continued | gist_import/imports.py:53-55 | the backslash joins consume at least the first physical line and no more lines than remain |
| Scanner.CloseParen | gist_import/imports.py:57-58 | the paren rule consumes at least the lines already joined and no more than remain, and adds no `#` |
| ScannerFacts.BackslashJoinsNextLine | gist_import/imports.py:53-59 | the comment is cut from the joined line, which is returned when it has no surplus `(` |
| ScannerFacts.UnbalancedAfterContinued | gist_import/imports.py:53-58 | a joined line with surplus `(` takes exactly one further logical line |
| ScannerFacts.ContinuationAtEndDropped | gist_import/imports.py:38-39 | example: a block that is a single line ending in a backslash has no logical line at all |
| ScannerFacts.DanglingStopsShort | gist_import/imports.py:43-59 | when the last physical line ends in a backslash, no call of `_get_next_line` returns after consuming every remaining line |
| ScannerFacts.DanglingNeverRead | gist_import/imports.py:33-39 | the logical lines returned are read from physical lines that stop short of an unfinished last line |
| ScannerFacts.ScanEndsAtScanLength | gist_import/imports.py:33-39 | the loop reads its logical lines from the first `ScanLength` physical lines and finds no logical line in the rest |
| ScannerFacts.KeptBeforeStop | gist_import/imports.py:33-39 | the logical lines read before a tail that makes no logical line are exactly the result |
| ScannerFacts.UnfinishedTailDropped | gist_import/imports.py:33-39 | for a block ending in an unfinished continuation, the result is exactly the logical lines read before some line short of the end, and the rest is dropped |
| ScannerFacts.CommentHidesAppended | gist_import/imports.py:55-56 | text appended after a comment on the same physical line disappears with it |
| ScannerFacts.CommentSwallowsContinuation | gist_import/imports.py:53-56 | a backslash inside a comment still joins the next logical line, which is then cut away with the comment |
| ScannerFacts.SelectImportsMembers | gist_import/imports.py:36-37 | a line is returned if and only if it is the stripped form of a logical line that contains `import` |
| ScannerFacts.SelectImportsAppend | gist_import/imports.py:34-37 | selection keeps source order: selecting from two runs of lines is selecting from each in turn |
| ScannerFacts.AssignmentIsSelected | gist_import/imports.py:36 | the assignment `important = 1` passes the substring test |
| ScannerFacts.AssignmentBlockSelected | gist_import/imports.py:22-39 | the code block `important = 1` has that assignment as its only import line |
| ScannerFacts.SinglePlainLine | gist_import/imports.py:33-35 | a code block of one plain line is one logical line |
| ScannerFacts.TruncatedTailKeepsEarlierLines | gist_import/imports.py:38-39 | example: a plain line followed by an unfinished continuation gives that plain line alone |
| Patterns.DirectPattern | gist_import/imports.py:116 | `re.match(r'import\s+(.*)')` succeeds if and only if the line starts with `import` and whitespace; the group is the rest of the physical line after that whitespace |
| Patterns.DirectPatternComplete | gist_import/imports.py:116 | any split of the line of that shape is the one the matcher returns |
| Patterns.FromPattern | gist_import/imports.py:95 | every match returned has the shape `from`, blanks, a word without blanks, blanks, `import`, blanks, rest of line |
| Patterns.FromPatternComplete | gist_import/imports.py:95 | whenever such a split exists the matcher finds a match; with a non-empty module word it is exactly that split |
| Resolver.AssertRex | gist_import/imports.py:86-88 | a failed match raises the parse error naming the line; a match passes through unchanged |
| Resolver.Import | gist_import/imports.py:99 | `import_module` without a package always fails on the empty name and on a relative name starting with `.`; any other name fails exactly when the loader fails, and a success returns the loaded module |
| Resolver.DirectImport | gist_import/imports.py:112-119 | a line that does not start with `import` and whitespace raises; otherwise it binds the matched group to the loaded module, and fails exactly when loading fails, and then with the import error of that name |
| Resolver.Restrict | gist_import/imports.py:102-103 | the module attributes whose names are listed, with their values |
| Resolver.Exported | gist_import/imports.py:104-106 | `__all__` names are looked up in order; the result is all of them if every one exists; otherwise the first missing one is reported |
| Resolver.FromImport | gist_import/imports.py:91-109 | the parse error is raised if and only if the line has no from-import shape |
| Resolver.FromNames | gist_import/imports.py:100-109 | explicit names select listed attributes; `*` takes `__all__` when present, the whole `__dict__` otherwise; only the `__all__` path can fail |
| Resolver.ImportImports | gist_import/imports.py:64-83 | every line containing ` as ` fails; any other line is resolved by the from-import when it contains `from `, and by the direct import otherwise |
| Resolver.MergeImports | gist_import/imports.py:18 | the merge succeeds if and only if every line resolves; otherwise the error is that of the first failing line; the merged names are exactly those of `acc` and those the lines bind |
| Resolver.GetImportsInCodeblock | gist_import/imports.py:9-18 | succeeds if and only if every import line of the block resolves |
| ResolverFacts.FromImportOfMatch | gist_import/imports.py:95-99 | a from-import with a non-empty module word loads exactly that module and applies the names group to it |
| ResolverFacts.ExplicitWithinStar | gist_import/imports.py:100-109 | for a module without `__all__`, an explicit from-import is part of the star import from it |
| ResolverFacts.MergeAppend | gist_import/imports.py:18 | merging two runs of lines is merging the first, then the second into its result |
| ResolverFacts.MergeLastWins | gist_import/imports.py:18 | when the final line binds a name, its value wins |
| ResolverFacts.MergeLastBinderWins | gist_import/imports.py:18 | the last line that binds a name decides its value, whatever the lines after it bind |
| ResolverFacts.LineKeysBound | gist_import/imports.py:18 | a name is among the names the lines bind exactly when some line resolves and binds it, so the merge adds no name of its own |
| ResolverFacts.MergeKeepsUnbound | gist_import/imports.py:18 | a name no line binds keeps its earlier value |
| ResolverFacts.AliasAbortsCodeblock | gist_import/imports.py:17-18 | one aliased import line makes `get_imports_in_codeblock` raise |
| ResolverFacts.AssignmentLineRefused | gist_import/imports.py:64-76 | `important = 1` matches neither pattern and raises |
| ResolverFacts.AssignmentBlocksRepair | gist_import/imports.py:9-18 | a snippet consisting of `important = 1` makes `get_imports_in_codeblock` raise whatever the loader does |
| ResolverFacts.RelativeFromImportRefused | gist_import/imports.py:95-99 | a from-import whose module name starts with `.` raises the import error, whatever is installed |
| ResolverFacts.FromNamesPiE | gist_import/imports.py:101-103 | the names text `pi, e` keeps exactly the module's `pi` and `e`, with their values |
| ResolverFacts.FromMathPiE | gist_import/imports.py:91-103 | `from math import pi, e` binds exactly those of `pi` and `e` that `math` has, and raises when `math` does not load |
| ResolverFacts.DottedNameBoundWhole | gist_import/imports.py:116-119 | `import os.path` binds the key `os.path` to the module `os.path` |
| ResolverFacts.EmptyModuleMatch | gist_import/imports.py:95 | `from  import x` matches with an empty module group, through the engine's backtracking |
| ResolverFacts.EmptyModuleNameRefused | gist_import/imports.py:95-99 | `from  import x` raises the import error for the empty module name, whatever is installed |
| Executor.TryExecuting | gist_import/execution.py:40-49 | the namespace is what `exec` left; no exception returns `None`; a subclass of `Exception` is returned; anything else escapes |
| Executor.Update | gist_import/execution.py:68 | `dict.update`: keys of the argument take its values, other keys keep theirs |
| Executor.Finish | gist_import/execution.py:69-71 | an exception returned by the last run becomes a warning; an escaped one leaves `_run` |
| Executor.Run | gist_import/execution.py:64-71 | the snippet runs a second time if and only if the first run raised a `NameError` and the imports resolved, on the first run's namespace updated with them; a resolver error leaves `_run` after the first run exactly then; the snippet's exception leaves `_run` exactly when the resolver did not fail and the last run escaped, and it is never an `Exception`; it is the last run's own exception, and the warnings are then only the retry announcement, if there was a `NameError`; the first warning announces the retry exactly after a `NameError`, and without a fault the warnings are that announcement followed by the last run's returned exception, if any |
| Executor.RunSnippet | gist_import/execution.py:64-71 | on a snippet, the second run happens if and only if the first run raised a `NameError` and every import line of the snippet resolves; the resolver's exception leaves `_run` if and only if the first run raised a `NameError` and some import line does not resolve |
| Executor.Seed | gist_import/execution.py:37 | `{**globals(), **locals(), **kwargs}`: every key of the three, a later map winning |
| ExecutorFacts.ResolverOnlyAfterNameError | gist_import/execution.py:65-68 | without a `NameError` the imports are never resolved: the outcome does not depend on them |
| ExecutorFacts.NoRepairWithoutNameError | gist_import/execution.py:65-71 | without a `NameError` the snippet runs once, and the namespace is what it left |
| ExecutorFacts.SnippetExceptionsContained | gist_import/execution.py:46-49 | if the snippet raises only subclasses of `Exception`, only a resolver error can leave `_run` |
| ExecutorFacts.FailureWarnedIffCaught | gist_import/execution.py:70-71 | the last warning reports a failure exactly when the last run returned an exception |
| ExecutorFacts.RepairOverwrites | gist_import/execution.py:68 | the repair imports overwrite the names they bind, and every other name the first run left is kept |
| ExecutorFacts.KeywordsWin | gist_import/execution.py:37 | a keyword argument wins over an ambient binding of the same name |
| GistSources.ParseFilename | gist_import/execution.py:73-82 | a given file name is kept; otherwise the first file of the gist is taken, and a gist without files raises |
| GistSources.Construct | gist_import/execution.py:28-38 | the errors come in source order; construction succeeds if and only if a file is chosen, it is in the gist, the gist has an owner and `_run` on its content and the seeded namespace raises nothing; the importer then holds that file, content, description, owner and run |
| GistSources.FromCodeBlock | gist_import/execution.py:94-118 | succeeds exactly when `_run` raises nothing; the importer holds `_run`'s whole report on the seeded namespace, so its final namespace too, and has no file name, description or owner |
| GistSources.RawUrl | gist_import/execution.py:144-150 | a raw URL is kept; a URL with neither the raw host nor `github.com/` is refused, and only such a URL |
| GistSourcesFacts.DefaultFileIsInGist | gist_import/execution.py:31-32 | without a file name, the chosen file always passes the membership assertion |
| GistSourcesFacts.MissingFileBeforeMissingOwner | gist_import/execution.py:32-36 | a missing file is reported before a missing owner |
| GistSourcesFacts.KeywordsReachSnippet | gist_import/execution.py:106-117 | keyword arguments of `from_code_block` reach the snippet's first run under their own names |
| GistSourcesFacts.PageUrlIsNotRaw | gist_import/execution.py:144 | a `https://github.com/` page URL contains the raw host only if the part after the host does |
| GistSourcesFacts.HostRewritten | gist_import/execution.py:149 | `github.com` in the host becomes the raw host, and the rest of the URL is copied |
| GistSourcesFacts.BlobDropped | gist_import/execution.py:150 | the single `blob/` after the directory part is removed, and everything else is copied |
| GistSourcesFacts.GitHubPageToRaw | gist_import/execution.py:137-150 | `https://github.com/<path>/blob/<file>` becomes `https://raw.githubusercontent.com/<path>/<file>`, for any path and file that do not mention the raw host, `github.com` or `blob/` |

## Left out

- Network access is not modelled. This covers `_retrieve_gist_data`,
  `from_url` and `raise_for_status`. The gist API response is an input
  value (`Gist`), and `from_github` is modelled only up to the URL it
  passes to `from_url` (`RawUrl`).
- `exec` and `importlib.import_module` are uninterpreted parameters
  (`Evaluator`, `Loader`). Side effects of modules that are imported before
  a later line fails are not modelled.
- The side effects of `exec` are not modelled beyond the namespace it
  returns.
- The text of the warnings is not modelled, only their kind. That includes
  the missing `f` prefix of the first warning (execution.py:67).
- `__getitem__`, `__setitem__` and `__delitem__` are plain dictionary
  access on the namespace, so they are not modelled.
- `mock` is modelled only as the field values `from_code_block` sees. Those
  are an empty code block, no file name, and the seeded namespace.
- What `globals()` and `locals()` contain at the two call sites is not
  modelled. Both are inputs to `Seed`.
- Dictionary insertion order of the resolved bindings is not modelled.
  Bindings are maps. Only the namespace's contents matter to `exec`.
- The alias re-keying of imports.py:80-82 is not modelled, because line 78
  always raises first.
- Module attribute access is `__dict__` only. `getattr` through a module
  `__getattr__` is not modelled.
- Python's recursion limit is not modelled. `_get_next_line` recurses once
  per backslash-continued or unbalanced line (imports.py:55, 58), so a run
  of about a thousand such lines raises `RecursionError`, which is not a
  `StopIteration` and leaves `get_import_lines` and `_run`. `Scanner.NextLine`
  has no depth bound and returns a logical line there instead.
- Text.IsWord: `\w` is taken as ASCII letters, digits and `_`. Python's
  `\w` also matches non-ASCII word characters.
- Executor.Run: takes the result of `get_imports_in_codeblock` as a
  parameter. `Executor.RunSnippet` supplies `GetImportsInCodeblock(load,
  code)`. Evaluation is pure, so consulting the resolver only after a
  `NameError` is a property of `Run` (`ExecutorFacts.ResolverOnlyAfterNameError`)
  rather than an ordering of effects.
- GistSourcesFacts.GitHubPageToRaw: proved only for a path and file name
  that do not themselves contain the raw host, `github.com` or `blob/`.
  The two `str.replace` calls rewrite every occurrence, so for other names
  the result is not the raw URL of the file.
- `setup.py` and `tests.py` are not part of this model.

=== FILE: executor.dfy ===
/** The execute-and-repair core of `gist_import/execution.py`: the snippet is
    run against a namespace (`try_excecuting_gist`), and if, and only if, the
    first run fails with a `NameError` the imports found in the snippet are
    merged into the namespace and the snippet is run once more (`_run`).

    `exec` is the parameter `eval`: it returns the namespace as the snippet
    left it (Python's `exec` mutates the dictionary in place, also when the
    snippet raises) and the exception it raised, if any. */
module Executor {
  import opened Wrappers
  import opened Scanner
  import opened Resolver

  /** The `pocket_globals` dictionary. */
  type Namespace = Bindings

  /** Where a raised exception sits in Python's class hierarchy, as far as
      the core tells them apart. */
  datatype ErrorKind =
    | NameErrorKind    // `NameError` or a subclass such as `UnboundLocalError`
    | OtherException   // any other subclass of `Exception`
    | NonException     // a `BaseException` outside `Exception`, such as `SystemExit`

  /** An exception raised by the snippet. */
  datatype Raised = Raised(className: string, kind: ErrorKind)

  /** What one `exec(code, namespace)` did. */
  datatype Execution = Execution(namespace: Namespace, raised: Option<Raised>)

  /** `exec`, uninterpreted. */
  type Evaluator = (string, Namespace) -> Execution

  /** What `try_excecuting_gist` does with the run: it returns `None`, it
      returns the caught exception, or the exception passes through. */
  datatype Outcome = Returned | Caught(error: Raised) | Escaped(error: Raised)

  /** One run: the namespace afterwards and its outcome. */
  datatype Attempt = Attempt(namespace: Namespace, outcome: Outcome)

  /** A diagnostic `_run` emits with `warnings.warn`; only its kind is
      modelled. */
  datatype Warning = RetryingWithImports | ExecutionFailed(error: Raised)

  /** An exception that leaves `_run`. */
  datatype Fault = SnippetEscaped(exception: Raised) | ResolverFailed(cause: ResolveError)

  /** What `_run` did: the namespace handed to each run of the snippet, in
      order, the namespace afterwards, the warnings, and the exception that
      left `_run`, if one did. */
  datatype Report = Report(inputs: seq<Namespace>, namespace: Namespace, warnings: seq<Warning>, fault: Option<Fault>)

  /** `except Exception`: `NameError` and every other `Exception` are caught,
      anything else is not. */
  predicate IsCaught(e: Raised) {
    e.kind != NonException
  }

  /** `try_excecuting_gist`: run the snippet once, catching exceptions. */
  function TryExecuting(eval: Evaluator, code: string, ns: Namespace): (r: Attempt)
    ensures r.namespace == eval(code, ns).namespace
    ensures r.outcome.Returned? <==> eval(code, ns).raised.None?
    ensures r.outcome.Caught? <==> eval(code, ns).raised.Some? && IsCaught(eval(code, ns).raised.value)
    ensures !r.outcome.Returned? ==> r.outcome.error == eval(code, ns).raised.value
  {
    var run := eval(code, ns);
    match run.raised
    case None => Attempt(run.namespace, Returned)
    case Some(e) => Attempt(run.namespace, if IsCaught(e) then Caught(e) else Escaped(e))
  }

  /** `isinstance(output, NameError)`. */
  predicate IsNameError(o: Outcome) {
    o.Caught? && o.error.kind == NameErrorKind
  }

  /** `dict.update`: the keys of `b` take their values from `b`, every other
      key keeps its value. */
  function Update(ns: Namespace, b: Bindings): (r: Namespace)
    ensures r.Keys == ns.Keys + b.Keys
    ensures forall k :: k in b ==> r[k] == b[k]
    ensures forall k :: k in ns && k !in b ==> r[k] == ns[k]
  {
    ns + b
  }

  /** The outcome of the last run, as a report of `_run` after runs have
      started: returned, caught (and warned about), or escaped. */
  function Finish(inputs: seq<Namespace>, last: Attempt, before: seq<Warning>): (r: Report)
    ensures r.inputs == inputs && r.namespace == last.namespace
    ensures r.fault.Some? <==> last.outcome.Escaped?
    ensures r.fault.Some? ==> r.fault.value == SnippetEscaped(last.outcome.error) && r.warnings == before
    ensures last.outcome.Returned? ==> r.warnings == before
    ensures last.outcome.Caught? ==> r.warnings == before + [ExecutionFailed(last.outcome.error)]
  {
    match last.outcome
    case Returned => Report(inputs, last.namespace, before, None)
    case Caught(e) => Report(inputs, last.namespace, before + [ExecutionFailed(e)], None)
    case Escaped(e) => Report(inputs, last.namespace, before, Some(SnippetEscaped(e)))
  }

  /** `_run`, given what `get_imports_in_codeblock` returns for the
      snippet.  After a `NameError` the imports are resolved (outside any
      `try`, so a resolver error leaves `_run`), merged into the namespace,
      and the snippet is run a second time; an exception the last run
      returned becomes a warning.  `resolved` is consulted only after a
      `NameError` (see `ExecutorFacts.ResolverOnlyAfterNameError`). */
  function Run(eval: Evaluator, code: string, ns: Namespace, resolved: Result<Bindings, ResolveError>): (r: Report)
    ensures 1 <= |r.inputs| <= 2 && r.inputs[0] == ns
    ensures |r.inputs| == 2 <==> IsNameError(TryExecuting(eval, code, ns).outcome) && resolved.Success?
    ensures |r.inputs| == 2 ==> r.inputs[1] == Update(eval(code, ns).namespace, resolved.value)
    ensures r.fault.Some? && r.fault.value.ResolverFailed? <==>
              IsNameError(TryExecuting(eval, code, ns).outcome) && resolved.Failure?
    ensures r.fault.Some? && r.fault.value.ResolverFailed? ==>
              r.fault.value.cause == resolved.error
              && r.namespace == eval(code, ns).namespace && r.warnings == [RetryingWithImports]
    ensures r.fault.Some? && r.fault.value.SnippetEscaped? ==> !IsCaught(r.fault.value.exception)
    ensures r.fault.Some? && r.fault.value.SnippetEscaped? <==>
              !(IsNameError(TryExecuting(eval, code, ns).outcome) && resolved.Failure?)
              && TryExecuting(eval, code, r.inputs[|r.inputs| - 1]).outcome.Escaped?
    ensures r.fault.Some? && r.fault.value.SnippetEscaped? ==>
              && r.fault.value.exception == TryExecuting(eval, code, r.inputs[|r.inputs| - 1]).outcome.error
              && r.warnings == (if IsNameError(TryExecuting(eval, code, ns).outcome) then [RetryingWithImports] else [])
    ensures |r.warnings| > 0 && r.warnings[0] == RetryingWithImports <==>
              IsNameError(TryExecuting(eval, code, ns).outcome)
    ensures r.fault.None? ==>
              var last := TryExecuting(eval, code, r.inputs[|r.inputs| - 1]).outcome;
              r.warnings == (if IsNameError(TryExecuting(eval, code, ns).outcome) then [RetryingWithImports] else [])
                            + (if last.Caught? then [ExecutionFailed(last.error)] else [])
    ensures r.fault.None? || r.fault.value.SnippetEscaped? ==>
              r.namespace == eval(code, r.inputs[|r.inputs| - 1]).namespace
  {
    var first := TryExecuting(eval, code, ns);
    if !IsNameError(first.outcome) then Finish([ns], first, [])
    else
      match resolved
      case Failure(e) => Report([ns], first.namespace, [RetryingWithImports], Some(ResolverFailed(e)))
      case Success(b) =>
        var repaired := Update(first.namespace, b);
        Finish([ns, repaired], TryExecuting(eval, code, repaired), [RetryingWithImports])
  }

  /** `_run` on a snippet, with the imports resolved by `load`: the snippet
      runs a second time exactly when its first run raised a `NameError` and
      every import line of the snippet resolves, and `_run` raises the
      resolver's exception exactly when the first run raised a `NameError`
      and some import line does not resolve. */
  function RunSnippet(eval: Evaluator, load: Loader, code: string, ns: Namespace): (r: Report)
    ensures 1 <= |r.inputs| <= 2 && r.inputs[0] == ns
    ensures |r.inputs| == 2 <==>
              IsNameError(TryExecuting(eval, code, ns).outcome)
              && forall line :: line in ImportLines(code) ==> ImportImports(load, line).Success?
    ensures r.fault.Some? && r.fault.value.ResolverFailed? <==>
              IsNameError(TryExecuting(eval, code, ns).outcome)
              && exists line :: line in ImportLines(code) && ImportImports(load, line).Failure?
    ensures !IsNameError(TryExecuting(eval, code, ns).outcome) ==>
              r.inputs == [ns] && r.namespace == eval(code, ns).namespace
  {
    Run(eval, code, ns, GetImportsInCodeblock(load, code))
  }

  /** `{**globals(), **locals(), **kwargs}`: every key of the three maps,
      a later map winning over an earlier one. */
  function Seed(globals: Namespace, locals: Namespace, kwargs: Namespace): (r: Namespace)
    ensures r.Keys == globals.Keys + locals.Keys + kwargs.Keys
    ensures forall k :: k in kwargs ==> r[k] == kwargs[k]
    ensures forall k :: k in locals && k !in kwargs ==> r[k] == locals[k]
    ensures forall k :: k in globals && k !in locals && k !in kwargs ==> r[k] == globals[k]
  {
    globals + locals + kwargs
  }
}

/** Properties of the execute-and-repair core. */
module ExecutorFacts {
  import opened Wrappers
  import opened Resolver
  import opened Executor

  /** A run that does not end in a `NameError` never consults the resolver:
      the report is the same whatever the resolver would have returned. */
  lemma ResolverOnlyAfterNameError(eval: Evaluator, code: string, ns: Namespace,
                                   resolved1: Result<Bindings, ResolveError>, resolved2: Result<Bindings, ResolveError>)
    requires !IsNameError(TryExecuting(eval, code, ns).outcome)
    ensures Run(eval, code, ns, resolved1) == Run(eval, code, ns, resolved2)
  {
  }

  /** Without a `NameError` the core changes nothing itself: the namespace
      is what the single run of the snippet left. */
  lemma NoRepairWithoutNameError(eval: Evaluator, code: string, ns: Namespace, resolved: Result<Bindings, ResolveError>)
    requires !IsNameError(TryExecuting(eval, code, ns).outcome)
    ensures Run(eval, code, ns, resolved).inputs == [ns]
    ensures Run(eval, code, ns, resolved).namespace == eval(code, ns).namespace
  {
  }

  /** An evaluator that only raises subclasses of `Exception` never makes
      `_run` raise through the snippet; the only exception that can still
      leave `_run` is the resolver's. */
  lemma SnippetExceptionsContained(eval: Evaluator, code: string, ns: Namespace, resolved: Result<Bindings, ResolveError>)
    requires forall n :: eval(code, n).raised.Some? ==> IsCaught(eval(code, n).raised.value)
    ensures var r := Run(eval, code, ns, resolved);
            r.fault.None? || r.fault.value.ResolverFailed?
  {
  }

  /** The last warning reports the exception of the last run exactly when
      that run ended in a caught exception. */
  lemma FailureWarnedIffCaught(eval: Evaluator, code: string, ns: Namespace, resolved: Result<Bindings, ResolveError>)
    ensures var r := Run(eval, code, ns, resolved);
            var last := TryExecuting(eval, code, r.inputs[|r.inputs| - 1]);
            r.fault.None? ==>
              (last.outcome.Caught? <==> |r.warnings| > 0 && r.warnings[|r.warnings| - 1].ExecutionFailed?)
  {
  }

  /** The imports used for the repair overwrite the names they bind; every
      other name the first run left is kept. */
  lemma RepairOverwrites(eval: Evaluator, code: string, ns: Namespace, resolved: Result<Bindings, ResolveError>, k: string)
    requires |Run(eval, code, ns, resolved).inputs| == 2
    ensures var b := resolved.value;
            var repaired := Run(eval, code, ns, resolved).inputs[1];
            && (k in b ==> k in repaired && repaired[k] == b[k])
            && (k !in b && k in eval(code, ns).namespace ==> repaired[k] == eval(code, ns).namespace[k])
  {
  }

  /** Keyword arguments given to the constructors win over the ambient
      bindings of the same name. */
  lemma KeywordsWin(globals: Namespace, locals: Namespace, kwargs: Namespace, k: string)
    requires k in kwargs
    ensures Seed(globals, locals, kwargs)[k] == kwargs[k]
  {
  }
}

=== FILE: gistsources.dfy ===
/** Where the snippet comes from, in `gist_import/execution.py`: the
    constructor of `GistImporter` (file choice, field reads, namespace
    seeding, then `_run`), `from_code_block`, and the URL rewrite of
    `from_github`.  The gists API response is an input value; fetching it is
    not modelled. */
module GistSources {
  import opened Wrappers
  import opened Text
  import opened Resolver
  import opened Executor

  /** One file of a gist. */
  datatype GistFile = GistFile(content: string)

  /** The `files` object of a gist: the file names in the order the API
      lists them, and the entry of each. */
  datatype Files = Files(names: seq<string>, entries: map<string, GistFile>) {
    /** What a Python dict guarantees: every listed name has an entry, every
        entry is listed, and no name is listed twice. */
    predicate Valid() {
      && (forall i :: 0 <= i < |names| ==> names[i] in entries)
      && (forall k :: k in entries ==> k in names)
      && (forall i, j :: 0 <= i < j < |names| ==> names[i] != names[j])
    }
  }

  /** The fields of the gists API response the constructor reads; the
      owner's login is `None` when the API gives no owner. */
  datatype Gist = Gist(files: Files, description: string, ownerLogin: Option<string>)

  /** The exceptions the constructors raise. */
  datatype SourceError =
    | NoFiles                  // `IndexError` from `list(...)[0]` on an empty `files`
    | FileNotInGist(name: string)  // the `AssertionError` at line 32
    | NoOwner                  // `TypeError` from `None['login']`
    | NotGitHub(url: string)   // the `ValueError` of `from_github`
    | RunFailed(fault: Fault)  // an exception that left `_run`

  /** A constructed `GistImporter`: its file name (`None` for a mock), the
      snippet, the description and owner, and what `_run` did. */
  datatype Importer = Importer(filename: Option<string>, codeblock: string, description: string,
                               owner: string, report: Report)

  /** `_parse_filename`: the given name, or the first file of the gist when
      none is given. */
  function ParseFilename(files: Files, filename: Option<string>): (r: Result<string, SourceError>)
    ensures filename.Some? ==> r == Success(filename.value)
    ensures filename.None? ==> (r.Success? <==> |files.names| > 0)
    ensures filename.None? && r.Success? ==> r.value == files.names[0]
    ensures r.Failure? ==> r.error == NoFiles
  {
    match filename
    case Some(name) => Success(name)
    case None => if |files.names| == 0 then Failure(NoFiles) else Success(files.names[0])
  }

  /** `GistImporter.__init__`, after the gist data has been fetched: choose
      the file, check that the gist has it, read its content, description
      and owner, seed the namespace and run. */
  function Construct(gist: Gist, filename: Option<string>, globals: Namespace, locals: Namespace,
                     kwargs: Namespace, eval: Evaluator, load: Loader): (r: Result<Importer, SourceError>)
    requires gist.files.Valid()
    ensures filename.None? && |gist.files.names| == 0 ==> r == Failure(NoFiles)
    ensures filename.Some? && filename.value !in gist.files.entries ==> r == Failure(FileNotInGist(filename.value))
    ensures gist.ownerLogin.None? ==> r.Failure?
    ensures r.Success? <==>
              && ParseFilename(gist.files, filename).Success?
              && ParseFilename(gist.files, filename).value in gist.files.entries
              && gist.ownerLogin.Some?
              && RunSnippet(eval, load, gist.files.entries[ParseFilename(gist.files, filename).value].content,
                            Seed(globals, locals, kwargs)).fault.None?
    ensures r.Success? ==>
              && r.value.filename == Some(ParseFilename(gist.files, filename).value)
              && r.value.filename.value in gist.files.entries
              && r.value.codeblock == gist.files.entries[r.value.filename.value].content
              && r.value.description == gist.description && r.value.owner == gist.ownerLogin.value
              && r.value.report == RunSnippet(eval, load, r.value.codeblock, Seed(globals, locals, kwargs))
              && r.value.report.inputs[0] == Seed(globals, locals, kwargs)
              && r.value.report.fault.None?
  {
    var name :- ParseFilename(gist.files, filename);
    if name !in gist.files.entries then Failure(FileNotInGist(name))
    else
      var code := gist.files.entries[name].content;
      match gist.ownerLogin
      case None => Failure(NoOwner)
      case Some(owner) =>
        var report := RunSnippet(eval, load, code, Seed(globals, locals, kwargs));
        if report.fault.Some? then Failure(RunFailed(report.fault.value))
        else Success(Importer(Some(name), code, gist.description, owner, report))
  }

  /** `from_code_block`: a mock importer with the given snippet, run at
      once. */
  function FromCodeBlock(code: string, globals: Namespace, locals: Namespace, kwargs: Namespace,
                         eval: Evaluator, load: Loader): (r: Result<Importer, SourceError>)
    ensures r.Success? <==> RunSnippet(eval, load, code, Seed(globals, locals, kwargs)).fault.None?
    ensures r.Success? ==> r.value.codeblock == code && r.value.filename.None?
    ensures r.Success? ==> |r.value.report.inputs| > 0 && r.value.report.inputs[0] == Seed(globals, locals, kwargs)
    ensures r.Success? ==>
              && r.value.report == RunSnippet(eval, load, code, Seed(globals, locals, kwargs))
              && r.value.description == "" && r.value.owner == ""
  {
    var report := RunSnippet(eval, load, code, Seed(globals, locals, kwargs));
    if report.fault.Some? then Failure(RunFailed(report.fault.value))
    else Success(Importer(None, code, "", "", report))
  }

  const RawHost := "raw.githubusercontent.com"

  /** The URL `from_github` fetches: a raw URL as it is; a URL without
      `github.com/` is refused; otherwise every `github.com` becomes the raw
      host and then every `blob/` is removed. */
  function RawUrl(url: string): (r: Result<string, SourceError>)
    ensures Contains(url, RawHost) ==> r == Success(url)
    ensures r.Failure? <==> !Contains(url, RawHost) && !Contains(url, "github.com/")
    ensures r.Failure? ==> r.error == NotGitHub(url)
  {
    if Contains(url, RawHost) then Success(url)
    else if !Contains(url, "github.com/") then Failure(NotGitHub(url))
    else Success(ReplaceAll(ReplaceAll(url, "github.com", RawHost), "blob/", ""))
  }
}

/** Properties of the gist sources. */
module GistSourcesFacts {
  import opened Wrappers
  import opened Text
  import opened Resolver
  import opened Executor
  import opened GistSources

  /** Without a file name the first file is used, and it always passes the
      membership assertion of the constructor. */
  lemma DefaultFileIsInGist(files: Files)
    requires files.Valid() && |files.names| > 0
    ensures ParseFilename(files, None).Success?
    ensures ParseFilename(files, None).value in files.entries
  {
  }

  /** The checks of the constructor come in source order: a missing file
      is reported before a missing owner. */
  lemma MissingFileBeforeMissingOwner(gist: Gist, name: string, globals: Namespace, locals: Namespace,
                                      kwargs: Namespace, eval: Evaluator, load: Loader)
    requires gist.files.Valid() && name !in gist.files.entries && gist.ownerLogin.None?
    ensures Construct(gist, Some(name), globals, locals, kwargs, eval, load) == Failure(FileNotInGist(name))
  {
  }

  /** The keyword arguments of `from_code_block` are visible to the first
      run of the snippet under their own names (`foo` and `bar` in
      `from_code_block('foo.append(bar)', foo=[], bar=1)`). */
  lemma KeywordsReachSnippet(code: string, globals: Namespace, locals: Namespace, kwargs: Namespace,
                             eval: Evaluator, load: Loader, k: string)
    requires k in kwargs && FromCodeBlock(code, globals, locals, kwargs, eval, load).Success?
    ensures var inputs := FromCodeBlock(code, globals, locals, kwargs, eval, load).value.report.inputs;
            |inputs| > 0 && k in inputs[0] && inputs[0][k] == kwargs[k]
  {
  }

  /** The host of a GitHub page URL is rewritten; the rest of the URL does
      not mention `github.com` and is copied. */
  lemma HostRewritten(rest: string)
    requires !Contains(rest, "github.com")
    ensures ReplaceAll("https://" + ("github.com" + rest), "github.com", RawHost) == "https://" + (RawHost + rest)
  {
    ReplaceAfterFree("https://", "github.com" + rest, "github.com", RawHost);
    ReplaceAtStart(rest, "github.com", RawHost);
    ReplaceAbsentUnchanged(rest, "github.com", RawHost);
  }

  /** Removing `blob/` from the raw URL: the `b` of the host is skipped and
      the rest is rewritten on its own. */
  lemma BlobRemoved(tail: string)
    ensures ReplaceAll("https://raw.githu" + ("b" + ("usercontent.com/" + tail)), "blob/", "")
            == "https://raw.githu" + ("b" + ("usercontent.com/" + ReplaceAll(tail, "blob/", "")))
  {
    var mid := "usercontent.com/";
    ReplaceAfterFree("https://raw.githu", "b" + (mid + tail), "blob/", "");
    assert ("b" + (mid + tail))[1] == 'u';
    ReplaceSkipsChar('b', mid + tail, "blob/", "");
    ReplaceAfterFree(mid, tail, "blob/", "");
  }

  /** The directory part, ending in `/`, is copied and the one `blob/` after
      it is dropped. */
  // Automatic induction is off: this proof is direct, and induction only slows it.
  lemma {:induction false} BlobDropped(dir: string, file: string)
    requires |dir| > 0 && dir[|dir| - 1] == '/'
    requires !Contains(dir, "blob/") && !Contains(file, "blob/")
    ensures ReplaceAll(dir + ("blob/" + file), "blob/", "") == dir + file
  {
    var target := "blob/";
    assert forall k :: 0 <= k < |target| - 1 ==> target[k] != '/';
    ReplaceSkipsDelimited(dir, target + file, target, "");
    ReplaceAtStart(file, target, "");
    ReplaceAbsentUnchanged(file, target, "");
  }

  /** A URL under `https://github.com/` names the raw host only if the part
      after the host does: the host part holds no `r`. */
  lemma PageUrlIsNotRaw(tail: string)
    requires !Contains(tail, RawHost)
    ensures !Contains("https://github.com/" + tail, RawHost)
  {
    var host := "https://github.com/";
    var url := host + tail;
    forall i | 0 <= i <= |url| ensures !OccursAt(url, RawHost, i) {
      if i < |host| {
        assert url[i] == host[i];
        assert host[i] in "htps:/giub.com";
        assert i + |RawHost| <= |url| ==> url[i..i + |RawHost|][0] == url[i];
      } else {
        NotInSuffix(host, tail, RawHost, i);
      }
    }
  }

  /** No occurrence starts past the end of a prefix when the rest has
      none. */
  lemma NotInSuffix(a: string, b: string, p: string, i: nat)
    requires |a| <= i && !Contains(b, p)
    ensures !OccursAt(a + b, p, i)
  {
    assert !OccursAt(b, p, i - |a|);
    if i + |p| <= |a + b| {
      assert (a + b)[i..i + |p|] == b[i - |a|..i - |a| + |p|];
    }
  }

  /** The page URL regrouped as scheme, host and the part after the host. */
  lemma PageUrlShape(path: string, file: string)
    ensures "https://github.com/" + path + "/blob/" + file
            == "https://" + ("github.com" + ("/" + path + "/blob/" + file))
  {
  }

  /** The page URL regrouped as the host prefix and the part after it. */
  lemma PageUrlShape2(path: string, file: string)
    ensures "https://github.com/" + path + "/blob/" + file
            == "https://github.com/" + (path + "/blob/" + file)
  {
  }

  /** The URL after the host rewrite, regrouped around the `b` of the raw host and the `blob/` segment. */
  lemma RawUrlShape(path: string, file: string)
    ensures "https://" + (RawHost + ("/" + path + "/blob/" + file))
            == "https://raw.githu" + ("b" + ("usercontent.com/" + ((path + "/") + ("blob/" + file))))
  {
  }

  /** The URL after both rewrites, regrouped back into the raw-URL form. */
  lemma RawUrlShape2(path: string, file: string)
    ensures "https://raw.githu" + ("b" + ("usercontent.com/" + ((path + "/") + file)))
            == "https://raw.githubusercontent.com/" + path + "/" + file
  {
  }

  /** A page URL contains `github.com/` right after the scheme. */
  lemma PageUrlIsGitHub(tail: string)
    ensures Contains("https://github.com/" + tail, "github.com/")
  {
    var url := "https://github.com/" + tail;
    assert url[8..19] == "github.com/";
    assert OccursAt(url, "github.com/", 8);
  }

  /** The documented use of `from_github`: the page URL of a file on GitHub,
      `https://github.com/<path>/blob/<file>`, is turned into the URL of its
      raw text, `https://raw.githubusercontent.com/<path>/<file>`, provided
      the path and file name do not themselves mention the raw host,
      `github.com` or `blob/` (the two `str.replace` calls rewrite every
      occurrence). */
  lemma GitHubPageToRaw(path: string, file: string)
    requires !Contains(path + "/blob/" + file, RawHost)
    requires !Contains("/" + path + "/blob/" + file, "github.com")
    requires !Contains(path + "/", "blob/") && !Contains(file, "blob/")
    ensures RawUrl("https://github.com/" + path + "/blob/" + file)
            == Success("https://raw.githubusercontent.com/" + path + "/" + file)
  {
    // The concatenation regroupings are lemmas of their own: stated inline
    // they cost the solver far more than the rest of the proof.
    PageUrlShape(path, file);
    PageUrlShape2(path, file);
    PageUrlIsNotRaw(path + "/blob/" + file);
    PageUrlIsGitHub(path + "/blob/" + file);
    HostRewritten("/" + path + "/blob/" + file);
    RawUrlShape(path, file);
    BlobRemoved((path + "/") + ("blob/" + file));
    BlobDropped(path + "/", file);
    RawUrlShape2(path, file);
  }
}

=== FILE: patterns.dfy ===
/** The two anchored regular expressions of the resolver, matched by hand
    with the backtracking order of Python's `re` engine:

      re.match(r'import\s+(.*)', line)
      re.match(r'from\s+(\S*?)\s+import\s+(.*)', line)

    `\s` is Python's whitespace, `\S` its complement, and `.` any character
    except a newline.  A match is returned as the spans of its groups. */
module Patterns {
  import opened Wrappers
  import opened Text

  /** The half-open index range `[start, end)` of a captured group. */
  datatype Span = Span(start: nat, end: nat) {
    predicate Within(s: string) {
      start <= end <= |s|
    }
  }

  /** The text a group captured. */
  function Group(s: string, g: Span): string
    requires g.Within(s)
  {
    s[g.start..g.end]
  }

  /** The literal `kw` at index `k`, followed by at least one whitespace
      character (the `import\s+` of both patterns). */
  predicate KeywordAt(s: string, kw: string, k: nat) {
    OccursAt(s, kw, k) && k + |kw| < |s| && IsSpace(s[k + |kw|])
  }

  /** All characters of `s[i..j]` are whitespace. */
  predicate AllSpace(s: string, i: nat, j: nat)
    requires i <= j <= |s|
  {
    forall k :: i <= k < j ==> IsSpace(s[k])
  }

  /** `g` is what a greedy `\s+(.*)` captures after index `i`: the
      whitespace run starting at `i` is non-empty and maximal, and the group
      runs from there to the end of the physical line. */
  predicate RestAfterSpace(s: string, i: nat, g: Span) {
    && i < g.start <= g.end <= |s|
    && AllSpace(s, i, g.start)
    && (g.start < |s| ==> !IsSpace(s[g.start]))
    && (forall k :: g.start <= k < g.end ==> s[k] != '\n')
    && (g.end < |s| ==> s[g.end] == '\n')
  }

  /** The match `re.match(r'import\s+(.*)', s)` produces, group 1 being `g`. */
  predicate IsDirectMatch(s: string, g: Span) {
    OccursAt(s, "import", 0) && RestAfterSpace(s, 6, g)
  }

  /** The group `\s+(.*)` captures after index `i`. */
  function RestAfter(s: string, i: nat): (g: Span)
    requires i < |s| && IsSpace(s[i])
    ensures RestAfterSpace(s, i, g)
  {
    var start := SkipSpace(s, i);
    Span(start, LineEnd(s, start))
  }

  /** `re.match(r'import\s+(.*)', s)`: `None` exactly when `s` does not
      start with `import` followed by whitespace. */
  function DirectPattern(s: string): (r: Option<Span>)
    ensures r.Some? <==> KeywordAt(s, "import", 0)
    ensures r.Some? ==> IsDirectMatch(s, r.value)
  {
    if KeywordAt(s, "import", 0) then Some(RestAfter(s, 6)) else None
  }

  /** The spans of a from-import match: the module group, the index of the
      `import` keyword, and the imported-names group. */
  datatype FromMatch = FromMatch(modulePath: Span, keyword: nat, names: Span)

  /** The match `re.match(r'from\s+(\S*?)\s+import\s+(.*)', s)` produces:
      `from`, non-empty whitespace, a module name without whitespace,
      non-empty whitespace, `import`, and `\s+(.*)` as above. */
  predicate IsFromMatch(s: string, m: FromMatch) {
    && OccursAt(s, "from", 0)
    && 4 < m.modulePath.start <= m.modulePath.end < m.keyword <= |s|
    && AllSpace(s, 4, m.modulePath.start)
    && (forall k :: m.modulePath.start <= k < m.modulePath.end ==> !IsSpace(s[k]))
    && AllSpace(s, m.modulePath.end, m.keyword)
    && KeywordAt(s, "import", m.keyword)
    && RestAfterSpace(s, m.keyword + 6, m.names)
  }

  /** `re.match(r'from\s+(\S*?)\s+import\s+(.*)', s)`.

      The engine first lets `\s+` take the whole whitespace run after `from`;
      the lazy `\S*?` must then stop at the next whitespace, so it captures
      the whole non-blank word there, and `\s+import\s+` must follow.  If it
      does not, `\s+` gives back one character, `\S*?` matches empty text
      and `import` must start right after the original whitespace run (so
      `from  import x`, with two spaces, matches with an empty module name). */
  function FromPattern(s: string): (r: Option<FromMatch>)
    ensures r.Some? ==> IsFromMatch(s, r.value)
  {
    if !(OccursAt(s, "from", 0) && 4 < |s| && IsSpace(s[4])) then None
    else
      var j := SkipSpace(s, 4);
      var k := SkipNonSpace(s, j);
      if k < |s| && KeywordAt(s, "import", SkipSpace(s, k)) then
        Some(WordMatch(s, j, k, SkipSpace(s, k)))
      else if j >= 6 && KeywordAt(s, "import", j) then
        Some(FromMatch(Span(j - 1, j - 1), j, RestAfter(s, j + 6)))
      else None
  }

  /** The first attempt of the engine: the module group is the whole
      non-blank word `s[j..k]` and `import` starts at `q`. */
  function WordMatch(s: string, j: nat, k: nat, q: nat): (m: FromMatch)
    requires OccursAt(s, "from", 0) && 4 < j <= |s| && AllSpace(s, 4, j)
    requires j < |s| ==> !IsSpace(s[j])
    requires k == SkipNonSpace(s, j) && k < |s| && q == SkipSpace(s, k)
    requires KeywordAt(s, "import", q)
    ensures IsFromMatch(s, m)
  {
    assert s[q] == s[q..q + 6][0];
    assert j < k;
    FromMatch(Span(j, k), q, RestAfter(s, q + 6))
  }

  /** Completeness: whenever `s` can be split the way the pattern describes,
      the matcher finds a match; and when the split has a non-empty module
      name, the match is exactly that split. */
  lemma FromPatternComplete(s: string, m: FromMatch)
    requires IsFromMatch(s, m)
    ensures FromPattern(s).Some?
    ensures m.modulePath.start < m.modulePath.end ==> FromPattern(s) == Some(m)
  {
    var ms, me, ks := m.modulePath.start, m.modulePath.end, m.keyword;
    assert s[ks..ks + 6] == "import";
    assert s[ks] == 'i';
    assert IsSpace(s[4]);
    var j := SkipSpace(s, 4);
    if ms < me {
      assert !IsSpace(s[ms]);
      assert j == ms;
      var k := SkipNonSpace(s, j);
      assert IsSpace(s[me]);
      assert k == me;
      var q := SkipSpace(s, k);
      assert q == ks;
      RestAfterSpaceUnique(s, q + 6, m.names, FromPattern(s).value.names);
    } else {
      assert j == ks;
    }
  }

  /** The group of `\s+(.*)` after index `i` is determined by the text. */
  lemma RestAfterSpaceUnique(s: string, i: nat, g: Span, h: Span)
    requires RestAfterSpace(s, i, g) && RestAfterSpace(s, i, h)
    ensures g == h
  {
  }

  /** `DirectPattern` finds every match the pattern allows, and there is
      only one. */
  lemma DirectPatternComplete(s: string, g: Span)
    requires IsDirectMatch(s, g)
    ensures DirectPattern(s) == Some(g)
  {
    assert s[6] == s[6..g.start][0];
    RestAfterSpaceUnique(s, 6, g, DirectPattern(s).value);
  }
}

=== FILE: resolver.dfy ===
/** The import resolver of `gist_import/imports.py`: one import line becomes
    a map from names to objects (`import_direct_import`,
    `import_from_import`, `import_imports`), and the import lines of a code
    block are merged into one map (`get_imports_in_codeblock`).

    `importlib.import_module` is the parameter `load`; Python objects are
    opaque `Value`s; every exception the resolver can raise is a
    `ResolveError`. */
module Resolver {
  import opened Wrappers
  import opened Text
  import opened Patterns
  import opened Scanner

  /** An opaque Python object. */
  datatype Value = Object(id: nat)

  /** A loaded module: the module object itself, its `__dict__`, and its
      `__all__` list when it defines one. */
  datatype Module = Module(handle: Value, attributes: map<string, Value>, exports: Option<seq<string>>)

  /** `importlib.import_module`: the module of a dotted name, or `None`
      when importing it raises. */
  type Loader = string -> Option<Module>

  /** A name-to-object map, the `Dict[str, Any]` the resolver returns. */
  type Bindings = map<string, Value>

  /** The exceptions the resolver raises. */
  datatype ResolveError =
    | ParseFailure(line: string)                    // `ValueError` from `assert_rex`
    | ImportFailure(moduleName: string)             // `import_module` raised
    | MissingAttribute(moduleName: string, name: string)  // `getattr` on a name of `__all__`
    | AliasCallFailure(line: string)                // `TypeError` from `re.search` at line 78

  /** `assert_rex`: a failed match is a `ValueError` naming the line. */
  function AssertRex<T>(found: Option<T>, line: string): (r: Result<T, ResolveError>)
    ensures r.Success? <==> found.Some?
    ensures r.Success? ==> r.value == found.value
    ensures r.Failure? ==> r.error == ParseFailure(line)
  {
    match found
    case None => Failure(ParseFailure(line))
    case Some(v) => Success(v)
  }

  /** A name `import_module` refuses itself, before any finder is asked:
      the empty name (`ValueError: Empty module name`) and, since the
      resolver never passes a `package`, every relative name starting with
      `.` (`TypeError`: a relative import needs a package). */
  predicate RefusedName(name: string) {
    name == "" || name[0] == '.'
  }

  /** `importlib.import_module(name)` without a package: the names of
      `RefusedName` always raise, every other name is up to the loader. */
  function Import(load: Loader, name: string): (r: Result<Module, ResolveError>)
    ensures name == "" ==> r == Failure(ImportFailure(name))
    ensures |name| > 0 && name[0] == '.' ==> r == Failure(ImportFailure(name))
    ensures !RefusedName(name) ==> (r.Success? <==> load(name).Some?)
    ensures r.Success? ==> r.value == load(name).value
    ensures r.Failure? ==> r.error == ImportFailure(name)
  {
    if RefusedName(name) then Failure(ImportFailure(name))
    else
      match load(name)
      case None => Failure(ImportFailure(name))
      case Some(m) => Success(m)
  }

  /** `import_direct_import`: `import NAME` binds the text after `import`
      and its whitespace, to the end of the line, to the module of that
      name. */
  function DirectImport(load: Loader, line: string): (r: Result<Bindings, ResolveError>)
    ensures !KeywordAt(line, "import", 0) ==> r == Failure(ParseFailure(line))
    ensures forall g :: IsDirectMatch(line, g) ==>
              var name := Group(line, g);
              && (r.Success? <==> Import(load, name).Success?)
              && (r.Success? ==> r.value == map[name := Import(load, name).value.handle])
              && (r.Failure? ==> r.error == ImportFailure(name))
  {
    var g :- AssertRex(DirectPattern(line), line);
    var name := Group(line, g);
    var m :- Import(load, name);
    assert forall h :: IsDirectMatch(line, h) ==> h == g by {
      forall h | IsDirectMatch(line, h) ensures h == g {
        DirectPatternComplete(line, h);
      }
    }
    Success(map[name := m.handle])
  }

  /** The attributes of `m` whose names are among `names`. */
  function Restrict(m: Module, names: seq<string>): (r: Bindings)
    ensures forall k :: k in r <==> k in m.attributes && k in names
    ensures forall k :: k in r ==> r[k] == m.attributes[k]
  {
    map k | k in m.attributes && k in names :: m.attributes[k]
  }

  /** `{name: getattr(module, name) for name in module.__all__}`: the names
      are looked up in order, and the first one the module lacks raises
      `AttributeError`. */
  function Exported(moduleName: string, m: Module, names: seq<string>): (r: Result<Bindings, ResolveError>)
    ensures r.Success? <==> forall i :: 0 <= i < |names| ==> names[i] in m.attributes
    ensures r.Success? ==> forall k :: k in r.value <==> k in names
    ensures r.Success? ==> forall k :: k in r.value ==> r.value[k] == m.attributes[k]
    ensures r.Failure? ==> exists i :: 0 <= i < |names| && names[i] !in m.attributes
                                     && r.error == MissingAttribute(moduleName, names[i])
                                     && forall j :: 0 <= j < i ==> names[j] in m.attributes
    decreases |names|
  {
    if |names| == 0 then Success(map[])
    else if names[0] !in m.attributes then Failure(MissingAttribute(moduleName, names[0]))
    else
      var rest := Exported(moduleName, m, names[1..]);
      if rest.Failure? then
        var i :| 0 <= i < |names[1..]| && names[1..][i] !in m.attributes
                 && rest.error == MissingAttribute(moduleName, names[1..][i])
                 && forall j :: 0 <= j < i ==> names[1..][j] in m.attributes;
        assert names[i + 1] == names[1..][i];
        assert forall j :: 1 <= j < i + 1 ==> names[j] == names[1..][j - 1];
        rest
      else
        assert forall i :: 1 <= i < |names| ==> names[i] == names[1..][i - 1];
        Success(rest.value[names[0] := m.attributes[names[0]]])
  }

  /** `import_from_import`: `from MODULE import NAMES`.  An explicit name
      list keeps the module attributes named by its `\w+` tokens (unknown
      tokens are ignored); `*` takes the names of `__all__` when the module
      has one, and its whole `__dict__` otherwise. */
  function FromImport(load: Loader, line: string): (r: Result<Bindings, ResolveError>)
    ensures r == Failure(ParseFailure(line)) <==> forall m :: !IsFromMatch(line, m)
  {
    var found := FromPattern(line);
    if found.None? then
      assert forall m :: !IsFromMatch(line, m) by {
        forall m | IsFromMatch(line, m) ensures false {
          FromPatternComplete(line, m);
        }
      }
      Failure(ParseFailure(line))
    else
      var fm := found.value;
      var moduleName := Group(line, fm.modulePath);
      var names := Group(line, fm.names);
      match Import(load, moduleName)
      case Failure(e) => Failure(e)
      case Success(m) => FromNames(moduleName, m, names)
  }

  /** What `import_from_import` returns once the module is loaded, given the
      text of the names group. */
  function FromNames(moduleName: string, m: Module, names: string): (r: Result<Bindings, ResolveError>)
    ensures r.Failure? ==> m.exports.Some? && names == "*" && r.error.MissingAttribute?
    ensures names != "*" ==> r == Success(Restrict(m, Words(names)))
    ensures names == "*" && m.exports.None? ==> r == Success(m.attributes)
    ensures names == "*" && m.exports.Some? ==> r == Exported(moduleName, m, m.exports.value)
  {
    if names != "*" then Success(Restrict(m, Words(names)))
    else
      match m.exports
      case Some(all) => Exported(moduleName, m, all)
      case None => Success(m.attributes)
  }

  /** `import_imports`.  The line is cut at its first ` as ` and dispatched
      on whether it contains `from `; but a line that contains ` as ` then
      calls `re.search` without a subject string, which raises `TypeError`,
      so no aliased import ever succeeds. */
  function ImportImports(load: Loader, line: string): (r: Result<Bindings, ResolveError>)
    ensures Contains(line, " as ") ==> r.Failure?
    ensures !Contains(line, " as ") && Contains(line, "from ") ==> r == FromImport(load, line)
    ensures !Contains(line, " as ") && !Contains(line, "from ") ==> r == DirectImport(load, line)
  {
    var cut := CutMarkerToLineEnd(line, " as ");
    assert !Contains(line, " as ") ==> cut == line by {
      if !Contains(line, " as ") {
        CutWithoutMarkerUnchanged(line, " as ");
      }
    }
    var imports :- if Contains(line, "from ") then FromImport(load, cut) else DirectImport(load, cut);
    if Contains(line, " as ") then Failure(AliasCallFailure(line)) else Success(imports)
  }

  /** The names bound by the lines of `lines` that resolve. */
  function LineKeys(resolveLine: string -> Result<Bindings, ResolveError>, lines: seq<string>): set<string>
    decreases |lines|
  {
    if |lines| == 0 then {}
    else
      var first := resolveLine(lines[0]);
      (if first.Success? then first.value.Keys else {}) + LineKeys(resolveLine, lines[1..])
  }

  /** The dictionary comprehension of `get_imports_in_codeblock`, for a
      resolver of single lines: the maps of the lines are added to `acc` in
      order, a later key overwriting an earlier one, and the first line that
      raises aborts the whole merge. */
  function MergeImports(resolveLine: string -> Result<Bindings, ResolveError>, lines: seq<string>, acc: Bindings): (r: Result<Bindings, ResolveError>)
    ensures r.Success? <==> forall i :: 0 <= i < |lines| ==> resolveLine(lines[i]).Success?
    ensures r.Failure? ==> exists i :: 0 <= i < |lines| && resolveLine(lines[i]) == Failure(r.error)
                                     && forall j :: 0 <= j < i ==> resolveLine(lines[j]).Success?
    ensures r.Success? ==> acc.Keys <= r.value.Keys
    ensures r.Success? ==> forall i :: 0 <= i < |lines| ==> resolveLine(lines[i]).value.Keys <= r.value.Keys
    ensures r.Success? ==> r.value.Keys == acc.Keys + LineKeys(resolveLine, lines)
    decreases |lines|
  {
    if |lines| == 0 then Success(acc)
    else
      var first := resolveLine(lines[0]);
      if first.Failure? then Failure(first.error)
      else
        var r := MergeImports(resolveLine, lines[1..], acc + first.value);
        assert forall i :: 1 <= i < |lines| ==> lines[i] == lines[1..][i - 1];
        if r.Failure? then
          var i :| 0 <= i < |lines[1..]| && resolveLine(lines[1..][i]) == Failure(r.error)
                   && forall j :: 0 <= j < i ==> resolveLine(lines[1..][j]).Success?;
          assert resolveLine(lines[i + 1]) == Failure(r.error);
          r
        else r
  }

  /** `get_imports_in_codeblock`: the merged maps of the code block's import
      lines. */
  function GetImportsInCodeblock(load: Loader, codeblock: string): (r: Result<Bindings, ResolveError>)
    ensures r.Success? <==> forall line :: line in ImportLines(codeblock) ==> ImportImports(load, line).Success?
  {
    var lines := ImportLines(codeblock);
    var r := MergeImports(line => ImportImports(load, line), lines, map[]);
    assert forall line :: line in lines <==> exists i :: 0 <= i < |lines| && lines[i] == line;
    r
  }
}

/** Properties of the resolver. */
module ResolverFacts {
  import opened Wrappers
  import opened Text
  import opened Patterns
  import opened Scanner
  import opened ScannerFacts
  import opened Resolver

  /** Whenever a line has the shape of a from-import with a non-empty module
      name, `import_from_import` loads exactly that module and returns what
      the names group selects from it. */
  lemma FromImportOfMatch(load: Loader, line: string, m: FromMatch)
    requires IsFromMatch(line, m) && m.modulePath.start < m.modulePath.end
    ensures var name := Group(line, m.modulePath);
            FromImport(load, line)
            == match Import(load, name)
               case Failure(e) => Failure(e)
               case Success(md) => FromNames(name, md, Group(line, m.names))
  {
    FromPatternComplete(line, m);
  }

  /** For a module without `__all__`, an explicit from-import is a part of
      the star-import from the same module. */
  lemma ExplicitWithinStar(moduleName: string, m: Module, names: string)
    requires names != "*" && m.exports.None?
    ensures FromNames(moduleName, m, names).Success?
    ensures FromNames(moduleName, m, names).value.Keys <= FromNames(moduleName, m, "*").value.Keys
    ensures forall k :: k in FromNames(moduleName, m, names).value ==>
              FromNames(moduleName, m, names).value[k] == FromNames(moduleName, m, "*").value[k]
  {
  }

  /** A line with ` as ` is still imported in full, without its alias part,
      before line 78 raises: the error is the import's own error if it has
      one and the `TypeError` otherwise. */
  lemma AliasedLineFails(load: Loader, line: string)
    requires Contains(line, " as ")
    ensures var cut := CutMarkerToLineEnd(line, " as ");
            var inner := if Contains(line, "from ") then FromImport(load, cut) else DirectImport(load, cut);
            && ImportImports(load, line).Failure?
            && (inner.Success? ==> ImportImports(load, line).error == AliasCallFailure(line))
            && (inner.Failure? ==> ImportImports(load, line).error == inner.error)
  {
  }

  /** Merging two runs of lines is merging the first run and then the
      second one into its result. */
  lemma {:induction false} MergeAppend(resolveLine: string -> Result<Bindings, ResolveError>, a: seq<string>, b: seq<string>, acc: Bindings)
    ensures MergeImports(resolveLine, a + b, acc)
            == match MergeImports(resolveLine, a, acc)
               case Failure(e) => Failure(e)
               case Success(m) => MergeImports(resolveLine, b, m)
    decreases |a|
  {
    if |a| > 0 {
      var ab := a + b;
      assert ab[0] == a[0];
      assert ab[1..] == a[1..] + b;
      var first := resolveLine(a[0]);
      if first.Success? {
        MergeAppend(resolveLine, a[1..], b, acc + first.value);
      }
    } else {
      assert a + b == b;
    }
  }

  /** A name is among `LineKeys` exactly when some line of the run
      resolves and binds it; with `MergeImports`' key-set equation, the
      merge holds `acc`'s names and the names the lines bind, and no other. */
  lemma {:induction false} LineKeysBound(resolveLine: string -> Result<Bindings, ResolveError>, lines: seq<string>, k: string)
    ensures k in LineKeys(resolveLine, lines) <==>
              exists i :: 0 <= i < |lines| && resolveLine(lines[i]).Success? && k in resolveLine(lines[i]).value
    decreases |lines|
  {
    if |lines| > 0 {
      var rest := lines[1..];
      assert forall i :: 0 <= i < |rest| ==> rest[i] == lines[i + 1];
      LineKeysBound(resolveLine, rest, k);
      if k in LineKeys(resolveLine, rest) {
        var i :| 0 <= i < |rest| && resolveLine(rest[i]).Success? && k in resolveLine(rest[i]).value;
        assert resolveLine(lines[i + 1]) == resolveLine(rest[i]);
      }
      if exists i :: 0 <= i < |lines| && resolveLine(lines[i]).Success? && k in resolveLine(lines[i]).value {
        var i :| 0 <= i < |lines| && resolveLine(lines[i]).Success? && k in resolveLine(lines[i]).value;
        if i > 0 {
          assert rest[i - 1] == lines[i];
        }
      }
    }
  }

  /** When the final line binds a name, its value wins. */
  lemma {:induction false} MergeLastWins(resolveLine: string -> Result<Bindings, ResolveError>, lines: seq<string>, acc: Bindings, k: string)
    requires |lines| > 0 && MergeImports(resolveLine, lines, acc).Success?
    requires var last := resolveLine(lines[|lines| - 1]);
             last.Success? && k in last.value
    ensures MergeImports(resolveLine, lines, acc).value[k]
            == resolveLine(lines[|lines| - 1]).value[k]
  {
    var n := |lines|;
    assert lines == lines[..n - 1] + [lines[n - 1]];
    MergeAppend(resolveLine, lines[..n - 1], [lines[n - 1]], acc);
    var last := [lines[n - 1]];
    assert last[1..] == [];
  }

  /** The last line that binds a name decides its value, whatever the
      lines after it bind. */
  lemma {:induction false} MergeLastBinderWins(resolveLine: string -> Result<Bindings, ResolveError>, lines: seq<string>, acc: Bindings,
                                              k: string, i: nat)
    requires i < |lines| && MergeImports(resolveLine, lines, acc).Success?
    requires resolveLine(lines[i]).Success? && k in resolveLine(lines[i]).value
    requires forall j :: i < j < |lines| ==> k !in resolveLine(lines[j]).value
    ensures MergeImports(resolveLine, lines, acc).value[k] == resolveLine(lines[i]).value[k]
  {
    var front, back := lines[..i + 1], lines[i + 1..];
    assert lines == front + back;
    MergeAppend(resolveLine, front, back, acc);
    assert MergeImports(resolveLine, front, acc).Success?;
    MergeLastWins(resolveLine, front, acc, k);
    var mid := MergeImports(resolveLine, front, acc).value;
    assert forall j :: 0 <= j < |back| ==> back[j] == lines[i + 1 + j];
    MergeKeepsUnbound(resolveLine, back, mid, k);
  }

  /** A name no line binds keeps the value it had before the merge. */
  lemma {:induction false} MergeKeepsUnbound(resolveLine: string -> Result<Bindings, ResolveError>, lines: seq<string>, acc: Bindings, k: string)
    requires MergeImports(resolveLine, lines, acc).Success? && k in acc
    requires forall i :: 0 <= i < |lines| ==> k !in resolveLine(lines[i]).value
    ensures MergeImports(resolveLine, lines, acc).value[k] == acc[k]
    decreases |lines|
  {
    if |lines| > 0 {
      var first := resolveLine(lines[0]);
      assert forall i :: 0 <= i < |lines[1..]| ==> lines[1..][i] == lines[i + 1];
      MergeKeepsUnbound(resolveLine, lines[1..], acc + first.value, k);
    }
  }

  /** A single aliased import line anywhere in a code block makes
      `get_imports_in_codeblock` raise. */
  lemma AliasAbortsCodeblock(load: Loader, codeblock: string, line: string)
    requires line in ImportLines(codeblock) && Contains(line, " as ")
    ensures GetImportsInCodeblock(load, codeblock).Failure?
  {
  }

  /** A relative from-import (`from . import x`, `from .m import y`)
      matches the pattern with a module name starting with `.`, and
      `import_module` refuses it whatever the loader could find. */
  lemma RelativeFromImportRefused(load: Loader, line: string, m: FromMatch)
    requires IsFromMatch(line, m) && m.modulePath.start < m.modulePath.end
    requires line[m.modulePath.start] == '.'
    ensures FromImport(load, line) == Failure(ImportFailure(Group(line, m.modulePath)))
  {
    FromImportOfMatch(load, line, m);
  }

  /** The spans of `from math import pi, e`: module `math`, keyword at 10,
      names `pi, e`. */
  // The literal is fixed by `requires` so that definitions are not unfolded on it eagerly.
  lemma FromMathLineMatches(line: string)
    requires line == "from math import pi, e"
    ensures IsFromMatch(line, FromMatch(Span(5, 9), 10, Span(17, 22)))
    ensures line[5..9] == "math" && line[17..22] == "pi, e"
  {
    assert line[0..4] == "from" && line[10..16] == "import";
    assert IsSpace(line[4]) && IsSpace(line[9]) && IsSpace(line[16]) && !IsSpace(line[17]);
    assert forall k :: 5 <= k < 9 ==> !IsSpace(line[k]);
    assert forall k :: 17 <= k < 22 ==> line[k] != '\n';
  }

  /** Any from-import of `math` whose names group is `pi, e`. */
  lemma FromMathMatchPiE(load: Loader, line: string, m: FromMatch)
    requires IsFromMatch(line, m) && m.modulePath.start < m.modulePath.end
    requires Group(line, m.modulePath) == "math" && Group(line, m.names) == "pi, e"
    ensures load("math").None? ==> FromImport(load, line) == Failure(ImportFailure("math"))
    ensures load("math").Some? ==>
              && FromImport(load, line).Success?
              && (forall k :: k in FromImport(load, line).value <==>
                                k in load("math").value.attributes && (k == "pi" || k == "e"))
              && (forall k :: k in FromImport(load, line).value ==>
                                FromImport(load, line).value[k] == load("math").value.attributes[k])
  {
    FromImportOfMatch(load, line, m);
    if load("math").Some? {
      FromNamesPiE("math", load("math").value, Group(line, m.names));
    }
  }

  /** The names group `pi, e` keeps exactly the module's `pi` and `e`. */
  // The literal is fixed by `requires` so that definitions are not unfolded on it eagerly.
  lemma FromNamesPiE(moduleName: string, md: Module, names: string)
    requires names == "pi, e"
    ensures FromNames(moduleName, md, names).Success?
    ensures forall k :: k in FromNames(moduleName, md, names).value <==>
                          k in md.attributes && (k == "pi" || k == "e")
    ensures forall k :: k in FromNames(moduleName, md, names).value ==>
                          FromNames(moduleName, md, names).value[k] == md.attributes[k]
  {
    WordsOfPiE(names);
  }

  /** `from math import pi, e` binds exactly those of `pi` and `e` that the
      module has, each to the module's own attribute. */
  // The literal is fixed by `requires` so that definitions are not unfolded on it eagerly.
  lemma FromMathPiE(load: Loader, line: string)
    requires line == "from math import pi, e"
    ensures load("math").None? ==> FromImport(load, line) == Failure(ImportFailure("math"))
    ensures load("math").Some? ==>
              && FromImport(load, line).Success?
              && (forall k :: k in FromImport(load, line).value <==>
                                k in load("math").value.attributes && (k == "pi" || k == "e"))
              && (forall k :: k in FromImport(load, line).value ==>
                                FromImport(load, line).value[k] == load("math").value.attributes[k])
  {
    FromMathLineMatches(line);
    FromMathMatchPiE(load, line, FromMatch(Span(5, 9), 10, Span(17, 22)));
  }

  /** `import os.path` binds the whole dotted name `os.path`, not `os`. */
  // The literal is fixed by `requires` so that definitions are not unfolded on it eagerly.
  lemma DottedNameBoundWhole(load: Loader, line: string)
    requires line == "import os.path"
    ensures load("os.path").Some? ==>
              DirectImport(load, line) == Success(map["os.path" := load("os.path").value.handle])
    ensures load("os.path").None? ==> DirectImport(load, line) == Failure(ImportFailure("os.path"))
  {
    var g := Span(7, 14);
    assert line[0..6] == "import";
    assert forall k :: 7 <= k < 14 ==> line[k] != '\n';
    assert IsDirectMatch(line, g);
    assert Group(line, g) == "os.path";
  }

  /** The assignment `important = 1` is taken for an import line, and it
      matches neither pattern: resolving it raises. */
  // The literal is fixed by `requires` so that definitions are not unfolded on it eagerly.
  lemma AssignmentLineRefused(load: Loader, s: string)
    requires s == "important = 1"
    ensures ImportImports(load, s).Failure?
  {
    assert s[0] == 'i' && s[6] == 'a';
    assert !OccursAt(s, "from", 0);
    assert !KeywordAt(s, "import", 0);
  }

  /** A snippet holding `important = 1` can never be repaired: however the
      modules load, `get_imports_in_codeblock` raises on it. */
  // The literal is fixed by `requires` so that definitions are not unfolded on it eagerly.
  lemma AssignmentBlocksRepair(load: Loader, s: string)
    requires s == "important = 1"
    ensures GetImportsInCodeblock(load, s).Failure?
  {
    AssignmentBlockSelected(s);
    AssignmentLineRefused(load, s);
    assert s in ImportLines(s);
  }

  /** The positions the from-pattern scans in `from  import x`. */
  // The literal is fixed by `requires` so that definitions are not unfolded on it eagerly.
  lemma EmptyModuleScan(line: string)
    requires line == "from  import x"
    ensures OccursAt(line, "from", 0) && IsSpace(line[4])
    ensures SkipSpace(line, 4) == 6 && SkipNonSpace(line, 6) == 12 && SkipSpace(line, 12) == 13
  {
    assert line[0..4] == "from";
    assert IsSpace(line[4]) && IsSpace(line[5]) && !IsSpace(line[6]);
    assert forall k :: 6 <= k < 12 ==> !IsSpace(line[k]);
    assert IsSpace(line[12]) && !IsSpace(line[13]);
  }

  /** The first attempt fails (nothing follows the word `import` but `x`),
      and the fallback finds `import` right after the blanks. */
  // The literal is fixed by `requires` so that definitions are not unfolded on it eagerly.
  lemma EmptyModuleMatch(line: string)
    requires line == "from  import x"
    ensures FromPattern(line) == Some(FromMatch(Span(5, 5), 6, RestAfter(line, 12)))
  {
    EmptyModuleScan(line);
    assert line[6..12] == "import";
    assert KeywordAt(line, "import", 6);
    assert !KeywordAt(line, "import", 13);
  }

  /** `from  import x` (two blanks) matches with an empty module name, which
      `importlib` refuses whatever is installed. */
  // The literal is fixed by `requires` so that definitions are not unfolded on it eagerly.
  lemma EmptyModuleNameRefused(load: Loader, line: string)
    requires line == "from  import x"
    ensures FromImport(load, line) == Failure(ImportFailure(""))
  {
    EmptyModuleMatch(line);
  }
}

=== FILE: scanner.dfy ===
/** The import-line scanner of `gist_import/imports.py`: physical lines are
    folded into logical lines (`_get_next_line`) and the logical lines that
    mention `import` are kept (`get_import_lines`).

    Python's iterator over `codeblock.split('\n')` is modelled as a sequence
    of physical lines; a call of `_get_next_line` reports how many of them it
    consumed, and `StopIteration` (running out of lines, possibly in the
    middle of a continuation) is `None`. */
module Scanner {
  import opened Wrappers
  import opened Text

  /** One logical line and the number of physical lines read to build it. */
  datatype Next = Next(line: string, consumed: nat)

  /** `re.sub('#.*', '', line)`: the comment is cut off. */
  function StripComment(line: string): (r: string)
    ensures '#' !in r
    ensures |r| <= |line|
    ensures '\n' !in line ==> r <= line && (|r| < |line| ==> line[|r|] == '#')
  {
    CutRemovesCharMarker(line, '#');
    CutCharMarkerIsPrefix(line, '#');
    CutMarkerToLineEnd(line, "#")
  }

  /** More opening than closing parentheses. */
  predicate Unbalanced(line: string) {
    Count(line, '(') > Count(line, ')')
  }

  /** `_get_next_line`.  An empty physical line is an empty logical line.
      Otherwise backslash continuations are applied first (`Continued`), then
      the comment is cut off, and if the result still has more `(` than `)`
      exactly one further logical line is appended.  Every call consumes at
      least one physical line, and no logical line contains `#`. */
  function NextLine(lines: seq<string>): (r: Option<Next>)
    ensures r.Some? ==> 1 <= r.value.consumed <= |lines|
    ensures r.Some? ==> '#' !in r.value.line
    ensures |lines| == 0 ==> r.None?
    ensures |lines| > 0 && lines[0] == "" ==> r == Some(Next("", 1))
    decreases |lines|, 1
  {
    if |lines| == 0 then None
    else if lines[0] == "" then Some(Next("", 1))
    else
      match Continued(lines)
      case None => None
      case Some(j) => CloseParen(lines, StripComment(j.line), j.consumed)
  }

  /** The first physical line (non-empty) with its trailing backslash, if
      any, replaced by the next logical line; comments are not yet cut. */
  function Continued(lines: seq<string>): (r: Option<Next>)
    requires |lines| > 0 && lines[0] != ""
    ensures r.Some? ==> 1 <= r.value.consumed <= |lines|
    decreases |lines|, 0
  {
    var raw := lines[0];
    if raw[|raw| - 1] == '\\' then
      match NextLine(lines[1..])
      case None => None
      case Some(n) => Some(Next(raw[..|raw| - 1] + n.line, 1 + n.consumed))
    else Some(Next(raw, 1))
  }

  /** The uncommented line read from the first `consumed` physical lines,
      with one more logical line appended when its `(` outnumber its `)`. */
  function CloseParen(lines: seq<string>, uncommented: string, consumed: nat): (r: Option<Next>)
    requires 1 <= consumed <= |lines| && '#' !in uncommented
    ensures r.Some? ==> consumed <= r.value.consumed <= |lines|
    ensures r.Some? ==> '#' !in r.value.line
    decreases |lines| - consumed
  {
    if Unbalanced(uncommented) then
      match NextLine(lines[consumed..])
      case None => None
      case Some(n) => Some(Next(uncommented + n.line, consumed + n.consumed))
    else Some(Next(uncommented, consumed))
  }

  /** The logical lines of a block of physical lines, read until the lines
      run out; a logical line left unfinished at the end is dropped. */
  function LogicalLines(lines: seq<string>): (r: seq<string>)
    ensures |r| <= |lines|
    ensures forall i :: 0 <= i < |r| ==> '#' !in r[i]
    decreases |lines|
  {
    match NextLine(lines)
    case None => []
    case Some(n) => [n.line] + LogicalLines(lines[n.consumed..])
  }

  /** The last physical line is an unfinished continuation: it is not empty
      and ends in a backslash. */
  predicate Dangling(lines: seq<string>) {
    |lines| > 0 && lines[|lines| - 1] != "" && lines[|lines| - 1][|lines[|lines| - 1]| - 1] == '\\'
  }

  /** The number of physical lines the logical lines of `LogicalLines` are
      read from; the lines after them are what the scan drops. */
  function ScanLength(lines: seq<string>): (n: nat)
    ensures n <= |lines|
    decreases |lines|
  {
    match NextLine(lines)
    case None => 0
    case Some(x) => x.consumed + ScanLength(lines[x.consumed..])
  }

  /** Reading the block from its top, the scan reaches physical line `k`
      having produced exactly the logical lines `out`. */
  predicate Reads(lines: seq<string>, k: nat, out: seq<string>)
    decreases |out|
  {
    && k <= |lines|
    && if |out| == 0 then k == 0
       else
         match NextLine(lines)
         case None => false
         case Some(n) =>
           && n.line == out[0] && n.consumed <= k
           && Reads(lines[n.consumed..], k - n.consumed, out[1..])
  }

  /** A line `get_import_lines` may return: it mentions `import` and has no
      surrounding whitespace. */
  predicate IsImportLine(line: string) {
    Contains(line, "import") && Strip(line) == line
  }

  /** The filter and clean-up of `get_import_lines`: the logical lines that
      contain `import`, stripped of surrounding whitespace, in order. */
  function SelectImports(logical: seq<string>): (r: seq<string>)
    ensures |r| <= |logical|
    ensures forall i :: 0 <= i < |r| ==> IsImportLine(r[i])
    decreases |logical|
  {
    if |logical| == 0 then []
    else
      var tail := SelectImports(logical[1..]);
      if Contains(logical[0], "import") then
        StripKeepsOccurrence(logical[0], "import");
        StripIdempotent(logical[0]);
        assert IsImportLine(Strip(logical[0]));
        [Strip(logical[0])] + tail
      else tail
  }

  /** `get_import_lines` as a value: the import lines of a code block. */
  function ImportLines(codeblock: string): seq<string> {
    SelectImports(LogicalLines(SplitLines(codeblock)))
  }

  /** `get_import_lines`: the loop of the source, reading one logical line at
      a time until the physical lines run out. */
  method GetImportLines(codeblock: string) returns (importLines: seq<string>)
    ensures importLines == ImportLines(codeblock)
  {
    var lines := SplitLines(codeblock);
    ghost var all := ImportLines(codeblock);
    importLines := [];
    while true
      invariant importLines + SelectImports(LogicalLines(lines)) == all
      decreases |lines|
    {
      var next := NextLine(lines);
      if next.None? {
        return;
      }
      var line := next.value.line;
      SelectStep(importLines, lines, next.value, all);
      if Contains(line, "import") {
        importLines := importLines + [Strip(line)];
      }
      lines := lines[next.value.consumed..];
    }
  }

  /** One step of the loop above: the selection over the remaining lines
      is the selection of the next logical line followed by the rest. */
  lemma SelectStep(done: seq<string>, lines: seq<string>, n: Next, all: seq<string>)
    requires NextLine(lines) == Some(n)
    requires done + SelectImports(LogicalLines(lines)) == all
    ensures Contains(n.line, "import") ==>
              (done + [Strip(n.line)]) + SelectImports(LogicalLines(lines[n.consumed..])) == all
    ensures !Contains(n.line, "import") ==> done + SelectImports(LogicalLines(lines[n.consumed..])) == all
  {
    var logical := LogicalLines(lines);
    assert logical == [n.line] + LogicalLines(lines[n.consumed..]);
    assert logical[1..] == LogicalLines(lines[n.consumed..]);
  }
}

/** Properties of the scanner. */
module ScannerFacts {
  import opened Wrappers
  import opened Text
  import opened Scanner

  lemma NoCommentUnchanged(s: string)
    requires '#' !in s
    ensures StripComment(s) == s
  {
    CharContains(s, '#');
    CutWithoutMarkerUnchanged(s, "#");
  }

  /** A non-empty physical line without backslash at the end, without `#`
      and with no surplus `(` is a logical line on its own. */
  lemma PlainLinePassesThrough(lines: seq<string>)
    requires |lines| > 0 && lines[0] != ""
    requires lines[0][|lines[0]| - 1] != '\\' && '#' !in lines[0]
    requires !Unbalanced(lines[0])
    ensures NextLine(lines) == Some(Next(lines[0], 1))
  {
    NoCommentUnchanged(lines[0]);
  }

  /** A line with more `(` than `)` once its comment is cut is followed by
      exactly one further logical line, whatever that line's parentheses. */
  lemma UnbalancedAppendsOneLine(lines: seq<string>, n: Next)
    requires |lines| > 0 && lines[0] != "" && lines[0][|lines[0]| - 1] != '\\'
    requires Unbalanced(StripComment(lines[0]))
    requires NextLine(lines[1..]) == Some(n)
    ensures NextLine(lines) == Some(Next(StripComment(lines[0]) + n.line, 1 + n.consumed))
  {
    var j := Next(lines[0], 1);
    assert Continued(lines) == Some(j);
    NextLineAfterContinued(lines, j);
    CloseParenAppends(lines, StripComment(lines[0]), 1, n);
  }

  // The literal is fixed by `requires` so that definitions are not unfolded on it eagerly.
  lemma OpenCallFirstLine(s: string)
    requires s == "f(a,"
    ensures StripComment(s) == s && Unbalanced(s)
  {
    OpenCallFirstLineHasNoComment(s);
    NoCommentUnchanged(s);
    OpenCallFirstLineIsOpen(s);
  }

  // The literal is fixed by `requires` so that definitions are not unfolded on it eagerly.
  lemma OpenCallFirstLineHasNoComment(s: string)
    requires s == "f(a,"
    ensures '#' !in s
  {
  }

  // The literal is fixed by `requires` so that definitions are not unfolded on it eagerly.
  lemma OpenCallFirstLineIsOpen(s: string)
    requires s == "f(a,"
    ensures Unbalanced(s)
  {
    assert Count(s, '(') == 1;
  }

  lemma OpenCallSecondLine()
    ensures '#' !in "b," && !Unbalanced("b,")
  {
    assert Count("b,", '(') == 0;
  }

  lemma OpenCallJoined()
    ensures "f(a," + "b," == "f(a,b," && Unbalanced("f(a,b,")
  {
    assert Count("f(a,b,", '(') == 1;
  }

  /** A logical line need not be balanced: a call spread over three physical
      lines is cut after the second one. */
  lemma UnbalancedPullsOnlyOneMoreLine(lines: seq<string>)
    requires |lines| >= 2 && lines[0] == "f(a," && lines[1] == "b,"
    ensures NextLine(lines) == Some(Next("f(a,b,", 2))
    ensures Unbalanced(NextLine(lines).value.line)
  {
    OpenCallFirstLine(lines[0]);
    OpenCallSecondLine();
    OpenCallJoined();
    PlainLinePassesThrough(lines[1..]);
    UnbalancedAppendsOneLine(lines, Next("b,", 1));
  }

  /** The backslash step of `_get_next_line`: a physical line ending in a
      backslash loses that backslash and is joined with the next logical
      line. */
  lemma ContinuedJoins(lines: seq<string>, n: Next)
    requires |lines| > 0 && lines[0] != "" && lines[0][|lines[0]| - 1] == '\\'
    requires NextLine(lines[1..]) == Some(n)
    ensures Continued(lines) == Some(Next(lines[0][..|lines[0]| - 1] + n.line, 1 + n.consumed))
  {
  }

  /** A physical line ending in a backslash is joined with the next logical
      line; only then is the comment cut, and the result is complete when its
      parentheses do not leave `(` in surplus. */
  lemma BackslashJoinsNextLine(lines: seq<string>, n: Next)
    requires |lines| > 0 && lines[0] != "" && lines[0][|lines[0]| - 1] == '\\'
    requires NextLine(lines[1..]) == Some(n)
    requires !Unbalanced(StripComment(lines[0][..|lines[0]| - 1] + n.line))
    ensures NextLine(lines) == Some(Next(StripComment(lines[0][..|lines[0]| - 1] + n.line), 1 + n.consumed))
  {
    ContinuedJoins(lines, n);
  }

  /** When the line joined by the continuations (`Continued`) still has
      `(` in surplus once its comment is cut, exactly one more logical line
      is appended after it. */
  // Automatic induction is off: this proof is direct, and induction only slows it.
  lemma {:induction false} UnbalancedAfterContinued(lines: seq<string>, j: Next, m: Next)
    requires |lines| > 0 && lines[0] != "" && Continued(lines) == Some(j)
    requires Unbalanced(StripComment(j.line))
    requires NextLine(lines[j.consumed..]) == Some(m)
    ensures NextLine(lines) == Some(Next(StripComment(j.line) + m.line, j.consumed + m.consumed))
  {
    NextLineAfterContinued(lines, j);
    CloseParenAppends(lines, StripComment(j.line), j.consumed, m);
  }

  // Automatic induction is off: this proof is direct, and induction only slows it.
  lemma {:induction false} NextLineAfterContinued(lines: seq<string>, j: Next)
    requires |lines| > 0 && lines[0] != "" && Continued(lines) == Some(j)
    ensures NextLine(lines) == CloseParen(lines, StripComment(j.line), j.consumed)
  {
  }

  // Automatic induction is off: this proof is direct, and induction only slows it.
  lemma {:induction false} CloseParenAppends(lines: seq<string>, uncommented: string, consumed: nat, m: Next)
    requires 1 <= consumed <= |lines| && '#' !in uncommented && Unbalanced(uncommented)
    requires NextLine(lines[consumed..]) == Some(m)
    ensures CloseParen(lines, uncommented, consumed) == Some(Next(uncommented + m.line, consumed + m.consumed))
  {
  }

  /** A continuation that runs past the last physical line makes the whole
      logical line disappear. */
  lemma ContinuationAtEndDropped(lines: seq<string>)
    requires |lines| == 1 && lines[0] != "" && lines[0][|lines[0]| - 1] == '\\'
    ensures NextLine(lines).None?
    ensures LogicalLines(lines) == []
  {
    assert NextLine(lines[1..]).None?;
  }

  /** Whatever precedes it, an unfinished continuation on the last physical
      line is never completed: no call of `_get_next_line` consumes every
      remaining line when the last one ends in a backslash. */
  lemma {:induction false} DanglingStopsShort(lines: seq<string>)
    requires Dangling(lines)
    ensures NextLine(lines).Some? ==> NextLine(lines).value.consumed < |lines|
    decreases |lines|, 1
  {
    if lines[0] != "" {
      ContinuedStopsShort(lines);
      match Continued(lines) {
        case None =>
        case Some(j) =>
          NextLineAfterContinued(lines, j);
          if Unbalanced(StripComment(j.line)) {
            var rest := lines[j.consumed..];
            assert rest[|rest| - 1] == lines[|lines| - 1];
            DanglingStopsShort(rest);
          }
      }
    }
  }

  /** The backslash joins of a block that ends in an unfinished
      continuation stop short of its last line too. */
  lemma {:induction false} ContinuedStopsShort(lines: seq<string>)
    requires Dangling(lines) && lines[0] != ""
    ensures Continued(lines).Some? ==> Continued(lines).value.consumed < |lines|
    decreases |lines|, 0
  {
    var raw := lines[0];
    if raw[|raw| - 1] == '\\' && |lines| > 1 {
      assert lines[1..][|lines| - 2] == lines[|lines| - 1];
      DanglingStopsShort(lines[1..]);
    }
  }

  /** The physical lines the scan turns into logical lines stop short of an
      unfinished last line: that line, with the lines of the logical line it
      would have ended, is dropped. */
  lemma {:induction false} DanglingNeverRead(lines: seq<string>)
    requires Dangling(lines)
    ensures ScanLength(lines) < |lines|
    decreases |lines|
  {
    DanglingStopsShort(lines);
    match NextLine(lines) {
      case None =>
      case Some(n) =>
        var rest := lines[n.consumed..];
        assert rest[|rest| - 1] == lines[|lines| - 1];
        DanglingNeverRead(rest);
    }
  }

  /** The scan reads the first `ScanLength` physical lines into the logical
      lines it returns and finds nothing more in the rest. */
  lemma {:induction false} ScanEndsAtScanLength(lines: seq<string>)
    ensures Reads(lines, ScanLength(lines), LogicalLines(lines))
    ensures NextLine(lines[ScanLength(lines)..]).None?
    decreases |lines|
  {
    match NextLine(lines) {
      case None =>
        assert lines[0..] == lines;
      case Some(n) =>
        var rest := lines[n.consumed..];
        ScanEndsAtScanLength(rest);
        assert rest[ScanLength(rest)..] == lines[ScanLength(lines)..];
        var out := LogicalLines(lines);
        assert out[1..] == LogicalLines(rest);
    }
  }

  /** Once the scan has produced `out` from the first `k` physical lines,
      remaining lines that make no further logical line leave `out` as the
      result: lines read before an unfinished tail are kept. */
  lemma {:induction false} KeptBeforeStop(lines: seq<string>, k: nat, out: seq<string>)
    requires Reads(lines, k, out) && NextLine(lines[k..]).None?
    ensures LogicalLines(lines) == out
    decreases |out|
  {
    if |out| == 0 {
      assert lines[0..] == lines;
    } else {
      var n := NextLine(lines).value;
      var rest := lines[n.consumed..];
      assert rest[k - n.consumed..] == lines[k..];
      KeptBeforeStop(rest, k - n.consumed, out[1..]);
    }
  }

  /** For a block whose last line is an unfinished continuation, the
      logical lines returned are exactly those read from the physical lines
      before some line `k` short of the end, and the lines from `k` on make
      no logical line at all. */
  lemma UnfinishedTailDropped(lines: seq<string>)
    requires Dangling(lines)
    ensures var k := ScanLength(lines);
            && k < |lines|
            && Reads(lines, k, LogicalLines(lines))
            && NextLine(lines[k..]).None?
  {
    DanglingNeverRead(lines);
    ScanEndsAtScanLength(lines);
  }

  /** Cutting the comment of a single physical line that already holds a
      `#` ignores whatever text is appended after it. */
  lemma CommentHidesAppended(a: string, b: string)
    requires '#' in a && '\n' !in a + b
    ensures StripComment(a + b) == StripComment(a)
  {
    var r1, r2 := StripComment(a), StripComment(a + b);
    var p :| 0 <= p < |a| && a[p] == '#';
    assert (a + b)[p] == '#';
    assert r1 != a && r2 != a + b;
    assert (a + b)[|r1|] == '#' && (a + b)[|r2|] == '#';
    assert r1 <= a + b;
  }

  /** A backslash after a comment is still a continuation, because it is
      seen on the raw line: the next logical line is consumed and then
      discarded together with the comment. */
  lemma CommentSwallowsContinuation(lines: seq<string>, n: Next)
    requires |lines| > 0 && lines[0] != "" && lines[0][|lines[0]| - 1] == '\\'
    requires '#' in lines[0][..|lines[0]| - 1]
    requires '\n' !in lines[0] && '\n' !in n.line
    requires NextLine(lines[1..]) == Some(n)
    requires !Unbalanced(StripComment(lines[0][..|lines[0]| - 1]))
    ensures NextLine(lines) == Some(Next(StripComment(lines[0][..|lines[0]| - 1]), 1 + n.consumed))
  {
    var a := lines[0][..|lines[0]| - 1];
    assert '\n' !in a;
    CommentHidesAppended(a, n.line);
    BackslashJoinsNextLine(lines, n);
  }

  /** Every logical line that mentions `import` is selected, stripped, and
      nothing else is: `x` is selected exactly when it is the stripped form of
      some logical line containing `import`. */
  lemma {:induction false} SelectImportsMembers(logical: seq<string>, x: string)
    ensures x in SelectImports(logical) <==>
            exists i :: 0 <= i < |logical| && Contains(logical[i], "import") && x == Strip(logical[i])
    decreases |logical|
  {
    if |logical| > 0 {
      SelectImportsMembers(logical[1..], x);
      var tail := logical[1..];
      if exists i :: 0 <= i < |tail| && Contains(tail[i], "import") && x == Strip(tail[i]) {
        var i :| 0 <= i < |tail| && Contains(tail[i], "import") && x == Strip(tail[i]);
        assert logical[i + 1] == tail[i];
      }
      if exists i :: 0 <= i < |logical| && Contains(logical[i], "import") && x == Strip(logical[i]) {
        var i :| 0 <= i < |logical| && Contains(logical[i], "import") && x == Strip(logical[i]);
        if i > 0 {
          assert tail[i - 1] == logical[i];
        }
      }
    }
  }

  /** The selection keeps source order: selecting from two consecutive runs
      of logical lines is selecting from each in turn. */
  lemma {:induction false} SelectImportsAppend(a: seq<string>, b: seq<string>)
    ensures SelectImports(a + b) == SelectImports(a) + SelectImports(b)
    decreases |a|
  {
    if |a| > 0 {
      var ab := a + b;
      assert ab[0] == a[0];
      assert ab[1..] == a[1..] + b;
      SelectImportsAppend(a[1..], b);
      var head := if Contains(a[0], "import") then [Strip(a[0])] else [];
      assert SelectImports(ab) == head + SelectImports(a[1..] + b);
      assert SelectImports(a) == head + SelectImports(a[1..]);
    } else {
      assert a + b == b;
    }
  }

  /** The substring test is not a statement test: an assignment to a name
      starting with `import` is selected as an import line. */
  // The literal is fixed by `requires` so that definitions are not unfolded on it eagerly.
  lemma AssignmentIsSelected(s: string)
    requires s == "important = 1"
    ensures SelectImports([s]) == [s]
  {
    assert OccursAt(s, "import", 0);
    assert SkipSpace(s, 0) == 0;
    assert SpaceTrimmedEnd(s, 0, |s|) == |s|;
    assert s[0..|s|] == s;
    assert Strip(s) == s;
    assert [s][1..] == [];
  }

  /** A code block made of that assignment alone has it as its only import
      line. */
  // Literal fixed by `requires`, induction off: both keep the solver from unfolding on it.
  lemma {:induction false} AssignmentBlockSelected(s: string)
    requires s == "important = 1"
    ensures ImportLines(s) == [s]
  {
    AssignmentLineIsPlain(s);
    SinglePlainLine(s);
    AssignmentIsSelected(s);
  }

  // Literal fixed by `requires`, induction off: both keep the solver from unfolding on it.
  lemma {:induction false} AssignmentLineIsPlain(s: string)
    requires s == "important = 1"
    ensures s != "" && s[|s| - 1] != '\\' && '\n' !in s && '#' !in s && !Unbalanced(s)
  {
    assert s[|s| - 1] == '1';
    forall i | 0 <= i < |s|
      ensures s[i] != '\n' && s[i] != '#' && s[i] != '('
    {
      assert s[i] in "importan =1";
    }
    CountAbsent(s, '(');
  }

  /** A code block of one plain line is one logical line. */
  // Automatic induction is off: this proof is direct, and induction only slows it.
  lemma {:induction false} SinglePlainLine(s: string)
    requires s != "" && s[|s| - 1] != '\\' && '\n' !in s && '#' !in s && !Unbalanced(s)
    ensures LogicalLines(SplitLines(s)) == [s]
  {
    SplitSingleLine(s);
    PlainLinePassesThrough([s]);
    assert [s][1..] == [];
  }

  /** An unfinished continuation on the last line is dropped while the
      logical lines read before it are kept. */
  lemma TruncatedTailKeepsEarlierLines(lines: seq<string>)
    requires |lines| == 2 && lines[0] != "" && lines[0][|lines[0]| - 1] != '\\'
    requires '#' !in lines[0] && !Unbalanced(lines[0])
    requires lines[1] != "" && lines[1][|lines[1]| - 1] == '\\'
    ensures LogicalLines(lines) == [lines[0]]
  {
    PlainLinePassesThrough(lines);
    ContinuationAtEndDropped(lines[1..]);
  }
}

=== FILE: text.dfy ===
/** The Python string primitives the import scanner relies on: `str.isspace`,
    `in` on strings, `str.count`, `str.strip`, `str.split('\n')`,
    `str.replace`, and the two fixed `re` idioms `re.sub(MARKER + '.*', '', s)`
    and `re.findall(r'(\w+)', s)`. */
module Text {

  /** Python's whitespace (`str.isspace`, `str.strip()` and the `\s` class of
      `re` on str patterns all use the same set of code points). */
  predicate IsSpace(c: char) {
    var n := c as int;
    || (9 <= n <= 13)
    || (28 <= n <= 32)
    || n == 0x85 || n == 0xA0 || n == 0x1680
    || (0x2000 <= n <= 0x200A)
    || n == 0x2028 || n == 0x2029 || n == 0x202F || n == 0x205F || n == 0x3000
  }

  /** The `\w` class, restricted to ASCII letters, digits and underscore. */
  predicate IsWord(c: char) {
    ('a' <= c <= 'z') || ('A' <= c <= 'Z') || ('0' <= c <= '9') || c == '_'
  }

  /** `p` occurs in `s` starting at index `i`. */
  predicate OccursAt(s: string, p: string, i: nat) {
    i + |p| <= |s| && s[i..i + |p|] == p
  }

  /** Python's `p in s` for strings. */
  predicate Contains(s: string, p: string) {
    exists i :: 0 <= i <= |s| && OccursAt(s, p, i)
  }

  /** Python's `s.count(c)` for a one-character argument. */
  function Count(s: string, c: char): nat {
    multiset(s)[c]
  }

  /** A character that does not occur is counted zero times. */
  lemma CountAbsent(s: string, c: char)
    requires c !in s
    ensures Count(s, c) == 0
  {
  }

  lemma OccursAtShift(s: string, p: string, i: nat, j: nat)
    requires j <= i && j <= |s| && OccursAt(s[j..], p, i - j)
    ensures OccursAt(s, p, i)
  {
    assert s[j..][i - j..i - j + |p|] == s[i..i + |p|];
  }

  /** An occurrence in a window of `s` is an occurrence in `s`. */
  lemma ContainsInfix(s: string, p: string, i: nat, j: nat)
    requires i <= j <= |s| && Contains(s[i..j], p)
    ensures Contains(s, p)
  {
    var w := s[i..j];
    var k :| 0 <= k <= |w| && OccursAt(w, p, k);
    assert k + |p| <= |w| && w[k..k + |p|] == p;
    var a, b := w[k..k + |p|], s[i + k..i + k + |p|];
    forall m | 0 <= m < |p| ensures a[m] == b[m] {
      assert w[k + m] == s[i + k + m];
    }
    assert a == b;
    assert OccursAt(s, p, i + k);
  }

  // ---------------------------------------------------------------------
  // Scanning positions

  /** A greedy `\s*` from `i`: the first index at or after `i` that is not
      whitespace. */
  function SkipSpace(s: string, i: nat): (j: nat)
    requires i <= |s|
    ensures i <= j <= |s|
    ensures forall k :: i <= k < j ==> IsSpace(s[k])
    ensures j < |s| ==> !IsSpace(s[j])
    decreases |s| - i
  {
    if i < |s| && IsSpace(s[i]) then SkipSpace(s, i + 1) else i
  }

  /** A greedy `\S*` from `i`: the first index at or after `i` that is
      whitespace. */
  function SkipNonSpace(s: string, i: nat): (j: nat)
    requires i <= |s|
    ensures i <= j <= |s|
    ensures forall k :: i <= k < j ==> !IsSpace(s[k])
    ensures j < |s| ==> IsSpace(s[j])
    decreases |s| - i
  {
    if i < |s| && !IsSpace(s[i]) then SkipNonSpace(s, i + 1) else i
  }

  /** The end of `s[i..j]` once its trailing whitespace is dropped. */
  function SpaceTrimmedEnd(s: string, i: nat, j: nat): (e: nat)
    requires i <= j <= |s|
    ensures i <= e <= j
    ensures forall k :: e <= k < j ==> IsSpace(s[k])
    ensures e > i ==> !IsSpace(s[e - 1])
    decreases j
  {
    if j > i && IsSpace(s[j - 1]) then SpaceTrimmedEnd(s, i, j - 1) else j
  }

  /** A greedy `.*` from `i`: the index of the next newline, or the end. */
  function LineEnd(s: string, i: nat): (j: nat)
    requires i <= |s|
    ensures i <= j <= |s|
    ensures forall k :: i <= k < j ==> s[k] != '\n'
    ensures j < |s| ==> s[j] == '\n'
    decreases |s| - i
  {
    if i < |s| && s[i] != '\n' then LineEnd(s, i + 1) else i
  }

  // ---------------------------------------------------------------------
  // str.strip()

  /** `s.strip()`: the window of `s` between its leading and trailing
      whitespace; it neither starts nor ends with whitespace. */
  function Strip(s: string): (r: string)
    ensures |r| <= |s|
    ensures |r| > 0 ==> !IsSpace(r[0]) && !IsSpace(r[|r| - 1])
  {
    var i := SkipSpace(s, 0);
    var j := SpaceTrimmedEnd(s, i, |s|);
    assert j > i ==> s[i..j][0] == s[i] && s[i..j][j - i - 1] == s[j - 1];
    s[i..j]
  }

  /** What `Strip` removes is whitespace only: the result is the window
      `s[i..j]`, with whitespace before `i` and from `j` on. */
  lemma StripIsWindow(s: string) returns (i: nat, j: nat)
    ensures i <= j <= |s| && Strip(s) == s[i..j]
    ensures forall k :: 0 <= k < i ==> IsSpace(s[k])
    ensures forall k :: j <= k < |s| ==> IsSpace(s[k])
  {
    i := SkipSpace(s, 0);
    j := SpaceTrimmedEnd(s, i, |s|);
  }

  /** A string that is already stripped is left alone by a second strip. */
  lemma StripIdempotent(s: string)
    ensures Strip(Strip(s)) == Strip(s)
  {
    var r := Strip(s);
    if |r| > 0 {
      assert SkipSpace(r, 0) == 0;
      assert SpaceTrimmedEnd(r, 0, |r|) == |r|;
      assert r[0..|r|] == r;
    }
  }

  /** Stripping whitespace never destroys an occurrence of a pattern that
      starts and ends with non-whitespace (such as the word `import`). */
  lemma StripKeepsOccurrence(s: string, p: string)
    requires |p| > 0 && !IsSpace(p[0]) && !IsSpace(p[|p| - 1])
    requires Contains(s, p)
    ensures Contains(Strip(s), p)
  {
    var k :| 0 <= k <= |s| && OccursAt(s, p, k);
    var i, j := StripIsWindow(s);
    assert s[k..k + |p|] == p;
    assert s[k] == p[0];
    assert s[k + |p| - 1] == p[|p| - 1];
    assert i <= k;
    assert k + |p| <= j;
    var r := Strip(s);
    var a, b := r[k - i..k - i + |p|], s[k..k + |p|];
    forall m | 0 <= m < |p| ensures a[m] == b[m] {
      assert r[k - i + m] == s[k + m];
    }
    assert OccursAt(r, p, k - i);
  }

  // ---------------------------------------------------------------------
  // re.sub(MARKER + '.*', '', s)

  /** `re.sub(MARKER + '.*', '', s)` for a literal marker: scanning left to
      right, every occurrence of the marker is removed together with the rest
      of its physical line (`.` does not match a newline). */
  function CutMarkerToLineEnd(s: string, marker: string): (r: string)
    requires |marker| > 0
    ensures |r| <= |s|
    decreases |s|
  {
    if |s| == 0 then ""
    else if marker <= s then CutMarkerToLineEnd(s[LineEnd(s, |marker|)..], marker)
    else [s[0]] + CutMarkerToLineEnd(s[1..], marker)
  }

  /** Text without the marker is returned unchanged. */
  lemma {:induction false} CutWithoutMarkerUnchanged(s: string, marker: string)
    requires |marker| > 0 && !Contains(s, marker)
    ensures CutMarkerToLineEnd(s, marker) == s
    decreases |s|
  {
    if |s| > 0 {
      assert !OccursAt(s, marker, 0);
      assert !(marker <= s);
      if Contains(s[1..], marker) {
        var k :| 0 <= k <= |s[1..]| && OccursAt(s[1..], marker, k);
        OccursAtShift(s, marker, k + 1, 1);
        assert false;
      }
      CutWithoutMarkerUnchanged(s[1..], marker);
    }
  }

  /** Cutting at a one-character marker leaves no copy of that character. */
  lemma {:induction false} CutRemovesCharMarker(s: string, c: char)
    ensures c !in CutMarkerToLineEnd(s, [c])
    decreases |s|
  {
    if |s| > 0 {
      if [c] <= s {
        CutRemovesCharMarker(s[LineEnd(s, 1)..], c);
      } else {
        CutRemovesCharMarker(s[1..], c);
      }
    }
  }

  /** A one-character marker occurs exactly where that character does. */
  lemma CharContains(s: string, c: char)
    ensures Contains(s, [c]) <==> c in s
  {
    if c in s {
      var k :| 0 <= k < |s| && s[k] == c;
      assert OccursAt(s, [c], k);
    }
    if Contains(s, [c]) {
      var k :| 0 <= k <= |s| && OccursAt(s, [c], k);
      assert s[k..k + 1] == [c];
      assert s[k] == c;
    }
  }

  /** Cutting comments twice is the same as cutting them once. */
  lemma CutCharMarkerIdempotent(s: string, c: char)
    ensures var once := CutMarkerToLineEnd(s, [c]);
            CutMarkerToLineEnd(once, [c]) == once
  {
    var once := CutMarkerToLineEnd(s, [c]);
    CutRemovesCharMarker(s, c);
    CharContains(once, c);
    CutWithoutMarkerUnchanged(once, [c]);
  }

  /** On a single physical line, cutting at a one-character marker keeps
      exactly the text before the first copy of that character. */
  lemma {:induction false} CutCharMarkerIsPrefix(s: string, c: char)
    ensures '\n' !in s ==>
      var r := CutMarkerToLineEnd(s, [c]);
      r <= s && (|r| < |s| ==> s[|r|] == c)
    decreases |s|
  {
    if |s| > 0 && '\n' !in s {
      if [c] <= s {
        assert LineEnd(s, 1) == |s|;
      } else {
        CutCharMarkerIsPrefix(s[1..], c);
      }
    }
  }

  // ---------------------------------------------------------------------
  // str.split('\n') and '\n'.join

  /** `'\n'.join(lines)`. */
  function JoinLines(lines: seq<string>): string
  {
    if |lines| == 0 then "" else lines[0] + NewlinePrefixed(lines[1..])
  }

  /** Each line preceded by a newline, concatenated. */
  function NewlinePrefixed(lines: seq<string>): string
    decreases |lines|
  {
    if |lines| == 0 then "" else "\n" + lines[0] + NewlinePrefixed(lines[1..])
  }

  /** `s.split('\n')`: the physical lines of `s`, never an empty list, none
      containing a newline, and joining them back gives `s`. */
  function SplitLines(s: string): (r: seq<string>)
    ensures SplitOf(s, r)
    decreases |s|
  {
    if |s| == 0 then [""]
    else
      var tail := SplitLines(s[1..]);
      assert s == [s[0]] + s[1..];
      if s[0] == '\n' then
        SplitAfterNewline(s[1..], tail);
        [""] + tail
      else
        SplitAfterChar(s[0], s[1..], tail);
        [[s[0]] + tail[0]] + tail[1..]
  }

  /** `lines` is a split of `s` at its newlines: one more line than `s`
      has newlines, none containing a newline, joining back to `s`. */
  predicate SplitOf(s: string, lines: seq<string>) {
    && |lines| == Count(s, '\n') + 1
    && (forall i :: 0 <= i < |lines| ==> '\n' !in lines[i])
    && JoinLines(lines) == s
  }

  lemma SplitAfterNewline(rest: string, tail: seq<string>)
    requires SplitOf(rest, tail)
    ensures SplitOf(['\n'] + rest, [""] + tail)
  {
    var r := [""] + tail;
    assert multiset(['\n'] + rest) == multiset(['\n']) + multiset(rest);
    assert r[1..] == tail;
    assert NewlinePrefixed(tail) == "\n" + tail[0] + NewlinePrefixed(tail[1..]);
    assert JoinLines(r) == "" + NewlinePrefixed(tail);
    assert forall i :: 1 <= i < |r| ==> r[i] == tail[i - 1];
  }

  lemma SplitAfterChar(c: char, rest: string, tail: seq<string>)
    requires c != '\n' && SplitOf(rest, tail)
    ensures SplitOf([c] + rest, [[c] + tail[0]] + tail[1..])
  {
    assert multiset([c] + rest) == multiset([c]) + multiset(rest);
    JoinExtendsFirst([c], tail);
    var r := [[c] + tail[0]] + tail[1..];
    assert forall i :: 1 <= i < |r| ==> r[i] == tail[i];
  }

  /** A text without a newline splits into itself alone. */
  // Automatic induction is off: this proof is direct, and induction only slows it.
  lemma {:induction false} SplitSingleLine(s: string)
    requires '\n' !in s
    ensures SplitLines(s) == [s]
  {
    var r := SplitLines(s);
    assert SplitOf(s, r);
    CountAbsent(s, '\n');
    assert |r| == 1 && r[1..] == [];
    assert JoinLines(r) == r[0];
  }

  /** Extending the first line extends the joined text by the same prefix. */
  lemma JoinExtendsFirst(x: string, lines: seq<string>)
    requires |lines| >= 1
    ensures JoinLines([x + lines[0]] + lines[1..]) == x + JoinLines(lines)
  {
    var r := [x + lines[0]] + lines[1..];
    assert r[1..] == lines[1..];
  }

  // ---------------------------------------------------------------------
  // re.findall(r'(\w+)', s)

  /** Length of the run of word characters at the start of `s`. */
  function WordRun(s: string): (n: nat)
    ensures n <= |s|
    ensures forall k :: 0 <= k < n ==> IsWord(s[k])
    ensures n < |s| ==> !IsWord(s[n])
    decreases |s|
  {
    if |s| > 0 && IsWord(s[0]) then 1 + WordRun(s[1..]) else 0
  }

  /** `re.findall(r'(\w+)', s)`: the maximal runs of word characters, in
      order. */
  function Words(s: string): (r: seq<string>)
    ensures forall i :: 0 <= i < |r| ==> |r[i]| > 0
    ensures forall i, k :: 0 <= i < |r| && 0 <= k < |r[i]| ==> IsWord(r[i][k])
    ensures forall i :: 0 <= i < |r| ==> Contains(s, r[i])
    decreases |s|
  {
    if |s| == 0 then []
    else if !IsWord(s[0]) then
      var r := Words(s[1..]);
      assert forall i :: 0 <= i < |r| ==> Contains(s, r[i]) by {
        forall i | 0 <= i < |r| ensures Contains(s, r[i]) {
          assert s[1..|s|] == s[1..];
          ContainsInfix(s, r[i], 1, |s|);
        }
      }
      r
    else
      var n := WordRun(s);
      var tail := Words(s[n..]);
      var r := [s[..n]] + tail;
      assert OccursAt(s, s[..n], 0);
      assert forall i :: 0 <= i < |r| ==> Contains(s, r[i]) by {
        forall i | 0 <= i < |r| ensures Contains(s, r[i]) {
          if i > 0 {
            assert s[n..|s|] == s[n..];
            ContainsInfix(s, r[i], n, |s|);
          }
        }
      }
      r
  }

  /** The tokens of `s` read one character at a time, `cur` being the word
      read so far: a word character extends it, any other character ends
      it.  This is the textbook tokenizer `Words` is held against. */
  function WordScan(s: string, cur: string): seq<string>
    decreases |s|
  {
    if |s| == 0 then (if cur == "" then [] else [cur])
    else if IsWord(s[0]) then WordScan(s[1..], cur + [s[0]])
    else (if cur == "" then [] else [cur]) + WordScan(s[1..], "")
  }

  /** The strings of `ts` written one after the other. */
  function Concat(ts: seq<string>): string
    decreases |ts|
  {
    if |ts| == 0 then "" else ts[0] + Concat(ts[1..])
  }

  /** `s` with every non-word character removed. */
  function WordChars(s: string): string
    decreases |s|
  {
    if |s| == 0 then ""
    else if IsWord(s[0]) then [s[0]] + WordChars(s[1..])
    else WordChars(s[1..])
  }

  /** A word run of two or more characters: its token is the first
      character followed by the first token of the rest. */
  lemma WordsCons(s: string)
    requires |s| > 1 && IsWord(s[0]) && IsWord(s[1])
    ensures |Words(s[1..])| > 0
    ensures Words(s) == [[s[0]] + Words(s[1..])[0]] + Words(s[1..])[1..]
  {
    var t := s[1..];
    var m := WordRun(t);
    assert WordRun(s) == 1 + m;
    assert t[m..] == s[1 + m..];
    assert s[..1 + m] == [s[0]] + t[..m];
  }

  /** A word run of one character is a token on its own. */
  lemma WordsSingle(s: string)
    requires |s| > 0 && IsWord(s[0]) && (|s| == 1 || !IsWord(s[1]))
    ensures Words(s) == [[s[0]]] + Words(s[1..])
  {
    assert WordRun(s[1..]) == 0;
    assert s[..1] == [s[0]];
  }

  /** Scanning `s` after the partial word `cur`: `cur` is glued to the first
      token when `s` starts with a word character, and is a token of its own
      otherwise. */
  lemma {:induction false} WordScanAfter(s: string, cur: string)
    ensures cur == "" ==> WordScan(s, cur) == Words(s)
    ensures cur != "" && (|s| == 0 || !IsWord(s[0])) ==> WordScan(s, cur) == [cur] + Words(s)
    ensures cur != "" && |s| > 0 && IsWord(s[0]) ==>
              |Words(s)| > 0 && WordScan(s, cur) == [cur + Words(s)[0]] + Words(s)[1..]
    decreases |s|
  {
    if |s| > 0 {
      var t := s[1..];
      if IsWord(s[0]) {
        WordScanAfter(t, cur + [s[0]]);
        WordScanStep(s, cur);
      } else {
        WordScanAfter(t, "");
      }
    }
  }

  /** The step of `WordScanAfter` on a word character, given its result
      for the rest of `s`. */
  // Automatic induction is off: this proof is direct, and induction only slows it.
  lemma {:induction false} WordScanStep(s: string, cur: string)
    requires |s| > 0 && IsWord(s[0])
    requires var t, cur' := s[1..], cur + [s[0]];
             && (|t| == 0 || !IsWord(t[0]) ==> WordScan(t, cur') == [cur'] + Words(t))
             && (|t| > 0 && IsWord(t[0]) ==>
                   |Words(t)| > 0 && WordScan(t, cur') == [cur' + Words(t)[0]] + Words(t)[1..])
    ensures cur == "" ==> WordScan(s, cur) == Words(s)
    ensures cur != "" ==> |Words(s)| > 0 && WordScan(s, cur) == [cur + Words(s)[0]] + Words(s)[1..]
  {
    var t, cur' := s[1..], cur + [s[0]];
    if |t| > 0 && IsWord(t[0]) {
      WordsCons(s);
      assert cur' + Words(t)[0] == cur + ([s[0]] + Words(t)[0]);
    } else {
      WordsSingle(s);
    }
    if cur == "" {
      assert cur' == [s[0]];
    }
  }

  /** `re.findall(r'\w+', s)` agrees with the character-by-character
      tokenizer: the tokens are the maximal runs of word characters of `s`,
      in order. */
  lemma WordsAreScanTokens(s: string)
    ensures Words(s) == WordScan(s, "")
  {
    WordScanAfter(s, "");
  }

  /** The word characters at the head of `s` are the head of its word
      characters. */
  lemma {:induction false} WordCharsOfRun(s: string, n: nat)
    requires n <= |s| && forall k :: 0 <= k < n ==> IsWord(s[k])
    ensures WordChars(s) == s[..n] + WordChars(s[n..])
    decreases n
  {
    if n > 0 {
      WordCharsOfRun(s[1..], n - 1);
      assert s[1..][n - 1..] == s[n..];
      assert s[..n] == [s[0]] + s[1..][..n - 1];
    } else {
      assert s[0..] == s;
    }
  }

  /** No character is lost or added: written one after the other, the
      tokens are `s` without its non-word characters. */
  lemma {:induction false} WordsConcat(s: string)
    ensures Concat(Words(s)) == WordChars(s)
    decreases |s|
  {
    if |s| > 0 {
      if !IsWord(s[0]) {
        WordsConcat(s[1..]);
      } else {
        var n := WordRun(s);
        var r := Words(s);
        WordsConcat(s[n..]);
        WordCharsOfRun(s, n);
        assert r[0] == s[..n] && r[1..] == Words(s[n..]);
      }
    }
  }

  /** The names group `pi, e` holds the tokens `pi` and `e`. */
  // The literal is fixed by `requires` so that definitions are not unfolded on it eagerly.
  lemma WordsOfPiE(s: string)
    requires s == "pi, e"
    ensures Words(s) == ["pi", "e"]
  {
    WordsAreScanTokens(s);
    assert IsWord(s[0]) && IsWord(s[1]) && !IsWord(s[2]) && !IsWord(s[3]) && IsWord(s[4]);
    var t := s[1..];
    assert "" + [s[0]] == "p" && "p" + [t[0]] == "pi";
    var u := t[1..];
    assert WordScan(u, "pi") == ["pi"] + WordScan(u[1..], "");
    var v := u[1..];
    assert WordScan(v, "") == WordScan(v[1..], "");
    var w := v[1..];
    assert "" + [w[0]] == "e" && w[1..] == "";
  }

  // ---------------------------------------------------------------------
  // str.replace(target, replacement)

  /** `s.replace(target, replacement)`: non-overlapping occurrences of `target`, found left
      to right, are replaced by `replacement`. */
  function ReplaceAll(s: string, target: string, replacement: string): (r: string)
    requires |target| > 0
    ensures replacement == target ==> r == s
    ensures |replacement| == |target| ==> |r| == |s|
    decreases |s|
  {
    if |s| == 0 then ""
    else if target <= s then
      assert s == target + s[|target|..];
      replacement + ReplaceAll(s[|target|..], target, replacement)
    else
      assert s == [s[0]] + s[1..];
      [s[0]] + ReplaceAll(s[1..], target, replacement)
  }

  /** Replacing a string that does not occur changes nothing. */
  lemma {:induction false} ReplaceAbsentUnchanged(s: string, target: string, replacement: string)
    requires |target| > 0 && !Contains(s, target)
    ensures ReplaceAll(s, target, replacement) == s
    decreases |s|
  {
    if |s| > 0 {
      assert !OccursAt(s, target, 0);
      if Contains(s[1..], target) {
        var k :| 0 <= k <= |s[1..]| && OccursAt(s[1..], target, k);
        OccursAtShift(s, target, k + 1, 1);
        assert false;
      }
      ReplaceAbsentUnchanged(s[1..], target, replacement);
    }
  }


  /** A prefix in which no occurrence of `target` can start is copied through
      unchanged. */
  lemma {:induction false} ReplaceSkipsPrefix(p: string, t: string, target: string, replacement: string)
    requires |target| > 0
    requires forall i :: 0 <= i < |p| ==> !(target <= (p + t)[i..])
    ensures ReplaceAll(p + t, target, replacement) == p + ReplaceAll(t, target, replacement)
    decreases |p|
  {
    if |p| > 0 {
      assert !(target <= (p + t)[0..]);
      assert (p + t)[0..] == p + t;
      assert (p + t)[1..] == p[1..] + t;
      forall i | 0 <= i < |p[1..]| ensures !(target <= (p[1..] + t)[i..]) {
        assert (p[1..] + t)[i..] == (p + t)[i + 1..];
      }
      ReplaceSkipsPrefix(p[1..], t, target, replacement);
    }
  }

  /** An occurrence at the very start is replaced and scanning resumes after
      it. */
  lemma ReplaceAtStart(t: string, target: string, replacement: string)
    requires |target| > 0
    ensures ReplaceAll(target + t, target, replacement) == replacement + ReplaceAll(t, target, replacement)
  {
    assert (target + t)[|target|..] == t;
  }

  /** Text without the first character of `target` is copied through, and
      replacing continues behind it. */
  lemma ReplaceAfterFree(p: string, t: string, target: string, replacement: string)
    requires |target| > 0 && target[0] !in p
    ensures ReplaceAll(p + t, target, replacement) == p + ReplaceAll(t, target, replacement)
  {
    forall i | 0 <= i < |p| ensures !(target <= (p + t)[i..]) {
      assert (p + t)[i..][0] == p[i];
    }
    ReplaceSkipsPrefix(p, t, target, replacement);
  }

  /** A piece of text that does not contain `target`, and whose last
      character can only end an occurrence of `target`, is copied through:
      no occurrence starts inside it. */
  lemma ReplaceSkipsDelimited(p: string, t: string, target: string, replacement: string)
    requires |target| > 0 && |p| > 0 && !Contains(p, target)
    requires forall k :: 0 <= k < |target| - 1 ==> target[k] != p[|p| - 1]
    ensures ReplaceAll(p + t, target, replacement) == p + ReplaceAll(t, target, replacement)
  {
    forall i | 0 <= i < |p| ensures !(target <= (p + t)[i..]) {
      if i + |target| <= |p| {
        assert !OccursAt(p, target, i);
        assert (p + t)[i..i + |target|] == p[i..i + |target|];
      } else {
        assert (p + t)[i..][|p| - 1 - i] == p[|p| - 1];
      }
    }
    ReplaceSkipsPrefix(p, t, target, replacement);
  }

  /** An occurrence past the end of a prefix is an occurrence in the rest. */
  lemma OccursInSuffix(a: string, b: string, p: string, i: nat)
    requires |a| <= i && OccursAt(a + b, p, i)
    ensures OccursAt(b, p, i - |a|)
  {
    assert (a + b)[i..i + |p|] == b[i - |a|..i - |a| + |p|];
  }

  /** A character at which `target` does not start is copied. */
  lemma ReplaceSkipsChar(c: char, t: string, target: string, replacement: string)
    requires |target| > 0 && !(target <= [c] + t)
    ensures ReplaceAll([c] + t, target, replacement) == [c] + ReplaceAll(t, target, replacement)
  {
    assert ([c] + t)[1..] == t;
  }
}

=== FILE: wrappers.dfy ===
/** Failure-compatible Option and Result datatypes used throughout the model.
    Python's exceptions become `Failure` values (or `None` where the source's
    only failure is "no more input"). */
module Wrappers {

  datatype Option<+T> = None | Some(value: T) {

    predicate IsFailure() {
      None?
    }

    function PropagateFailure<U>(): Option<U>
      requires None?
    {
      None
    }

    function Extract(): T
      requires Some?
    {
      value
    }
  }

  datatype Result<+R, +E> = Success(value: R) | Failure(error: E) {

    predicate IsFailure() {
      Failure?
    }

    function PropagateFailure<U>(): Result<U, E>
      requires Failure?
    {
      Failure(error)
    }

    function Extract(): R
      requires Success?
    {
      value
    }
  }
}
